=== FILE: README.md ===
# GPT Personal Assistant: scheduling core

A Dafny model of the scheduling core of a small personal assistant, in two
generations.

The older assistant (`main.old.py`) builds the timeline of one day:

- It sorts the day's calendar events by start.
- It walks them from the start of the day. Each free interval before an event,
  and the one that closes the day, is filled from a priority-ordered pool of
  tasks.
- A task without a duration is sized by asking a question ("How long do you
  think it will take you to …?"). Its answer counts only when it parses as an
  integer.
- A task that fits is placed whole. The first task that does not fit is split:
  " (part 1)" fills the rest of the interval and " (part 2)" takes its place in
  the pool.
- The finished timeline is then checked against the calendar made from it:
  entry by entry, then pair by pair for overlap, duration (1 to 1440 minutes)
  and gap (0 to 240 minutes).

The newer assistant (`main.py`) has the schedule written by a chat model:

- Every reply line that starts with `(\d+:\d+),\s*(\d+)m,\s*(.+)` is rewritten
  as `HH:MM-HH:MM, <n>m, <description>`. The end time is computed in total
  minutes.
- A reply with no such line raises.
- The rewritten lines are then checked: three `", "`-separated fields, a
  `\d{2}:\d{2}` time and a `\d+m` duration.
- A separate helper, `calculate_end_time`, computes an end time with a single
  carry.

Modules:

- `Wrappers`: Option, Result and Outcome.
- `Timeline`: tasks, events, timeline items and their sums.
- `Allocator`: the corrected allocation of one interval.
- `AllocatorAsWritten`: the allocation loop as the source runs it.
- `Scheduler`: the walk over the day, filling each interval with the corrected `Allocator.Allocate`.
- `Validator`: the schedule-against-calendar check.
- `Text`: digits, `str.isspace`, `int()` on digit strings, `str.split`.
- `Clock`: end-time arithmetic and two-digit formatting.
- `ScheduleLines`: the reply-line regex, the rewrite and the format check.

Conventions:

- Times are whole minutes since midnight of the scheduled day.
- Due dates are day numbers.
- The duration oracle is a parameter: a function from the question text to
  the parsed integer answer, or None when the answer does not parse.

## Model

| member | source | states |
|---|---|---|
| Allocator.Allocate | main.old.py:125-162 | the allocation of one interval, with tasks considered in pool order; it carries no contract of its own, and the Allocate lemmas below state what it does |
| Allocator.AllocateLaysOut | main.old.py:142-155 | the items placed into an interval are all task items, laid end to end from the interval's start, each lasting its duration |
| Allocator.AllocateConserves | main.old.py:129-160 | no minute of work is lost or invented: the pool's work before the call equals the placed minutes plus the work left in the pool; the unsizable tasks stay in the pool in their order; a non-negative interval is never overfilled |
| Allocator.AllocateCounts | main.old.py:142-160 | every task that leaves the pool is placed, plus at most one extra item (the first part of a split), and when that extra item exists the interval is filled exactly |
| Allocator.AllocateEmpty | main.old.py:129-141 | a zero interval places nothing and leaves the pool as it is; otherwise nothing is placed exactly when no task of the pool can be sized, and then the pool is unchanged |
| Allocator.AllocateUnderfilled | main.old.py:130-148 | when the pool's work (none of it negative) is less than the interval, every sizable task is placed whole in pool order and only the unsizable tasks remain |
| Allocator.AllocateAtFillPoint | main.old.py:130-161 | when the interval runs out inside task k, tasks before k are placed whole or kept, task k is placed whole if it fills the rest exactly and split at the rest otherwise, and the tasks after k are untouched |
| AllocatorAsWritten.AllocateAsWritten | main.old.py:130-161 | the loop as written never grows the pool and never overfills a non-negative interval |
| AllocatorAsWritten.FirstEqual | main.old.py:159 | `tasks.index(task)` finds the first entry equal to the visited task: no earlier entry equals it, and the found one does unless it is the visited position itself |
| AllocatorAsWritten.AsWrittenSplitReplacesFirstEqual | main.old.py:130-159 | a 10-minute task and two equal 50-minute tasks in 30 minutes: the second 50-minute task is split, and its second part replaces the first of the two equal tasks |
| AllocatorAsWritten.AsWrittenSkipsTaskAfterRemoval | main.old.py:130-148 | two 10-minute tasks and a 20-minute interval: as written only the first is placed, while the corrected allocation places both |
| Scheduler.InsertEvent | main.old.py:104 | inserting an event into a start-sorted list keeps it sorted and adds exactly that event |
| Scheduler.SortEvents | main.old.py:104 | the sorted events are ordered by start and are a permutation of the input |
| Scheduler.InsertAheadOfTies | main.old.py:104 | an inserted event goes ahead of the events that start when it does, and their order is kept |
| Scheduler.SortEventsStable | main.old.py:104 | the sort is stable: for every start time, the events that start then appear in the order of the input |
| Scheduler.FillGap | main.old.py:108-112 | one interval of the day filled from the pool, raising on an allocation with nothing in it; FillGapRaises, FillGapLaysOut and FillGapConserves state what it does |
| Scheduler.FillGapRaises | main.old.py:107-119 | an interval raises (indexing the empty allocation) exactly when it is not empty and no task of the pool can be sized; an empty interval changes nothing |
| Scheduler.FillGapLaysOut | main.old.py:108-111 | a filled interval holds task items end to end from its start and no more minutes than it has room for |
| Scheduler.FillGapConserves | main.old.py:108-111 | filling an interval keeps the pool's work accounted for and keeps its unsizable tasks |
| Scheduler.ScheduleFrom | main.old.py:106-120 | every event appears once and unchanged, in the order walked; task work is either on the timeline or still in the pool; a raise names a non-empty interval; with no interval to fill the timeline is the events alone |
| Scheduler.GenerateSchedule | main.old.py:98-123 | the day's event entries are the input events, each exactly once and in ascending start order, and every minute of task work is on the timeline or still in the pool |
| Scheduler.ScheduleFromChained | main.old.py:107-119 | when events do not overlap one another, no timeline item ends after the next begins, and when the first event does not start before the cursor neither does the timeline |
| Scheduler.SortApart | main.old.py:104 | sorting keeps pairwise non-overlapping events pairwise non-overlapping |
| Scheduler.SortedApartDisjointed | main.old.py:104 | sorting well-formed, pairwise non-overlapping events gives a sequence in which each event ends before the next starts |
| Scheduler.GenerateScheduleChained | main.old.py:98-120 | a day built from well-formed, non-overlapping events never has an item that overlaps the next one |
| Scheduler.NoKnownWorkFails | main.old.py:107-123 | with a pool of tasks none of which can be sized, the day raises exactly when some interval on it is non-empty |
| Scheduler.ReportAroundStandup | main.old.py:98-161 | a 90-minute report around a 09:00-09:30 stand-up in an 08:30-10:00 day is split twice, and "(part 2) (part 2)" of 30 minutes stays in the pool |
| Validator.Validate | main.old.py:209-220 | the check passes exactly when the calendar matches the schedule entry by entry and every adjacent pair passes the overlap, duration and gap checks; a failure names the first check that fails |
| Validator.OwnCalendarMatches | main.old.py:209-213 | the calendar made from a schedule always matches it, so only the adjacency checks can fail |
| Text.DecimalRoundTrip | main.py:156 | the decimal digits of a number read back as that number, and their count is one, two, or three and more by magnitude |
| Text.SplitAt | main.py:172 | splitting at the first separator gives the text before it followed by the split of the rest |
| Clock.CalculateEndTime | main.py:224-240 | the end is the start plus the duration in total minutes; a start minute below 60 gives an end minute below 60; a non-negative duration never ends before the start, since nothing wraps at midnight |
| Clock.ReformatEnd | main.py:150-155 | the end as total minutes reduced by 60 has a minute below 60 and the same total |
| Clock.ReformatAgreesWithCalculate | main.py:152-155 | for a start minute below 60 the single-carry helper and the total-minutes rewrite give the same end |
| Clock.MinutesDetermineClock | main.py:154-155 | two clock times with minutes below 60 and the same total minutes are equal |
| Clock.Pad2RoundTrip | main.py:156 | a two-digit padded field reads back as its number and has exactly two characters below 100 |
| Clock.ParseFormatClock | main.py:150 | reading a formatted HH:MM back with `split(':')` and `int()` gives the clock time |
| Clock.EndTimeText | main.py:224-240 | `calculate_end_time` on its two strings, None where Python raises or where `int()` would accept whitespace, underscores or non-ASCII digits; EndTimeTextOfFormatted and EndTimeTextCarriesOnce state what it gives |
| Clock.EndTimeTextOfFormatted | main.py:224-240 | on a formatted start and a `<digits>m` duration, the helper's end-time text is the end the rewrite computes |
| Clock.CalculateEndTimeCarriesOnce | main.py:232-238 | a start minute of 75 and 50 minutes give the minute 65, which the total-minutes rewrite would carry into 11:05 |
| Clock.EndTimeTextCarriesOnce | main.py:224-240 | the helper turns "9:75" and "50m" into the text "10:65" |
| ScheduleLines.GiveBackLast | main.py:146 | backtracking the last `\s*` stops at the first position `.+` can take and fails only when every position is a line feed |
| ScheduleLines.MatchScheduleLine | main.py:146 | a match has non-empty digit groups and a non-empty description free of line feeds |
| ScheduleLines.MatchShape | main.py:146 | a matched line is its groups joined by the literal ':', ',' and 'm,' with runs of whitespace after each comma, up to the end of the text or a line feed |
| ScheduleLines.MatchLaidOut | main.py:146 | a line laid out from well-formed groups whose description does not start with whitespace matches with exactly those groups, whatever follows a line feed |
| ScheduleLines.GroupsRead | main.py:148-152 | the start-time group splits at ':' into the hour and minute numbers and the duration group reads as its number |
| ScheduleLines.ReformatLine | main.py:148-156 | the rewrite of one matched line; GroupsRead, ReformatLineFields and ReformattedLinePasses state what it gives |
| ScheduleLines.Reformatted | main.py:145-157 | no more rewritten lines than reply lines, and none exactly when no reply line matches |
| ScheduleLines.ReformattedLine | main.py:145-157 | a single reply line gives its rewrite when it matches the pattern and nothing otherwise |
| ScheduleLines.ReformattedCons | main.py:145-157 | the rewrites of a line followed by more lines are that line's rewrite, then theirs |
| ScheduleLines.ReformattedAppend | main.py:145-157 | the rewrites of two runs of reply lines are the rewrites of each, in reply order |
| ScheduleLines.ScheduleLinesOf | main.py:144-162 | a reply yields a non-empty list of lines, and raises exactly when none of its lines matches |
| ScheduleLines.LineDefect | main.py:172-177 | the first check a line fails, in the order the source makes them; ValidateFormat, RangeTimeOk, DurationFieldOk and ReformattedLinePasses state when it is None |
| ScheduleLines.ValidateFormat | main.py:169-180 | the check passes exactly when every line passes; a failure names the first failing line and what it fails |
| ScheduleLines.ReformatLineFields | main.py:172-175 | a rewritten line whose description holds no ", " splits into exactly its time range, its duration and its description |
| ScheduleLines.PadDigits | main.py:156 | a padded field of a non-negative number is all digits, at least two long, and two long exactly below 100 |
| ScheduleLines.RangeTimeOk | main.py:176 | the time range of a rewritten line passes `\d{2}:\d{2}` exactly when the start hour is below 100 |
| ScheduleLines.DurationFieldOk | main.py:177 | the duration field of a rewritten line always passes `\d+m` |
| ScheduleLines.CommaSpaceSplits | main.py:172-174 | a description holding ", " makes the rewritten line split at ", " into a number of fields other than three |
| ScheduleLines.ReformattedLinePasses | main.py:156-177 | a rewritten line passes the format check exactly when its start hour is below 100 and its description holds no ", " |
| ScheduleLines.ReformattedAllPass | main.py:144-177 | the rewritten lines of a reply all pass the format check exactly when every matching reply line has a start hour below 100 and no ", " in its description |
| ScheduleLines.AllPassEverywhere | main.py:169-180 | passing line by line from the first is the same as every line passing |

## Left out

- Reading the task file, the calendar and the preferences; building the ICS calendar or file; printing; writing files. These are I/O. Day start and day end are parameters in minutes.
- The chat-model and completion calls (`interact_with_ai`, `ask_user`). The duration oracle is a parameter, and the reply is a string parameter.
- Dates, time zones and `relativedelta`. Every instant is a whole minute of one day, so the `int(seconds / 60)` truncations are exact.
- The task sort by `(priority, due_date)`. `Scheduler.GenerateSchedule` takes a pool already in that order (`PoolOrdered`). A pool that mixes set and unset priorities, or set and unset due dates at one priority, makes Python's comparison raise; `PoolOrdered` admits no such pool.
- The caching of the oracle's answer in the task's duration field. For a deterministic oracle, asking again gives the same answer. The cached value matters only to what `tasks.index` compares, and `AllocatorAsWritten.AllocateAsWritten` compares the visited task with its answer written in.
- The duration oracle is total and deterministic: every question gets an answer, the same one each time. In the source, `ask_user` (main.old.py:167-184) raises on any failure of the completion call. It also raises KeyError at main.old.py:170 whenever the module-level `preferences` (main.old.py:10) has no "prompt". That is always the case in a run through `main`, whose assignment at main.old.py:232 binds a local. A raise in `ask_user` aborts `allocate_tasks` and `generate_schedule` (main.old.py:163-165, 121-123), and the day is not built; the model's allocation has no such failure. The source also asks again about a task it could not size in every later interval (main.old.py:133 and 139), and a completion sampled at temperature 0.5 may answer differently. The facts about unsizable tasks across intervals assume the same answer on every ask: the clauses of `Scheduler.ScheduleFrom` and `Scheduler.GenerateSchedule` that keep the unsizable tasks of the pool unchanged (`Unknown(r.value.pool, oracle)`), and `Scheduler.NoKnownWorkFails`.
- `tasks.remove(task)` removes the first task equal to the placed one. Only the placed task carries a start and an end, so this is always the visited task, as the model has it.
- `Allocator.Allocate` puts the second part of a split where the visited task was. There `tasks.index` finds nothing earlier: only unsizable tasks remain ahead of the visited task, and none of them is equal to it once its duration is known.
- `Scheduler.FillGap` uses the corrected `Allocator.Allocate`, not `AllocatorAsWritten.AllocateAsWritten`; see ## Findings. The day model therefore differs from main.old.py:110 and 117 whenever a placed task is followed by another task of the pool.
- The events are not checked for start before end. The lemmas about overlap take `Proper` events as a precondition.
- A task split twice is named with both suffixes. In an 08:30-10:00 day with a 90-minute report around a 09:00-09:30 stand-up, the code places "(part 2) (part 1)" in the closing interval and leaves "(part 2) (part 2)" in the pool (`Scheduler.ReportAroundStandup`).
- A non-empty interval into which nothing can be placed makes `allocated_tasks[-1]` raise, and the day is not built. With a pool of tasks none of which can be sized, this happens exactly when some interval of the day is not empty (`Scheduler.NoKnownWorkFails`). The model raises `EmptyGap`.
- The code places a task whose answer is zero or negative, without checking it. The model does the same. Only the lemmas that need it assume no negative durations (`NonNegative`).
- `int()` also accepts surrounding whitespace, underscores and non-ASCII digits. `Text.ParseInt` models ASCII digit strings with an optional leading `-` or `+`, since every string it reads, except the arguments of `Clock.EndTimeText`, comes from the digit groups of a match or from fields the model builds.
- `Clock.EndTimeText`: a start or duration whose numerals `int()` accepts only with surrounding whitespace, underscores or non-ASCII digits gives None here, where `calculate_end_time` returns a time (" 9:75" with "50m", or "9:75" with "5_0m", give "10:65" in the source).
- `\d` in the regexes is limited to ASCII digits, and `\s` is the set `str.isspace` accepts.
- `Clock.CalculateEndTime`: the helper is never called in the source. Its single carry can leave the end minute outside [0, 60) only when the start minute is outside it: a start minute of 60 or more ("9:75" and "50m" give "10:65") or a negative one ("9:-5" and "0m" give "09:-5"). This is stated by `Clock.CalculateEndTimeCarriesOnce` and not claimed as a finding.
- Allocator.AllocateAtFillPoint: the part-two duration is positive in the split branch, but this is not stated as a separate ensures.

## Findings

| source | as written | input that shows it | evidently intended | confidence | as-written member | corrected member |
|---|---|---|---|---|---|---|
| main.old.py:130-148 | `for task in tasks` advances by position while `tasks.remove(task)` shifts the next task into the position just visited, so the task after every placed task is skipped | two 10-minute tasks and a 20-minute interval: only the first task is placed and 10 minutes stay empty | every task in pool order is considered, so both tasks are placed and the interval is full | high, not executed | AllocatorAsWritten.AsWrittenSkipsTaskAfterRemoval | Allocator.AllocateUnderfilled |

=== FILE: allocator.dfy ===
/**
  The allocator: fills one free interval of the day with tasks taken, in pool
  order, from the task pool. A task that fits is placed whole and leaves the
  pool; the task that overflows the interval is split into a first part that
  exactly fills what is left and a second part that takes its place in the pool.
 */
module Allocator {
  import opened Wrappers
  import opened Timeline

  const QuestionOpening: string := "How long do you think it will take you to "
  const PartOneSuffix: string := " (part 1)"
  const PartTwoSuffix: string := " (part 2)"

  /** The question put to the duration oracle for a task whose duration is unknown. */
  function Question(description: string): string {
    QuestionOpening + description + "?"
  }

  /** The task's duration, asking the oracle only when the task has none. */
  function Resolve(t: Task, oracle: Oracle): Option<int> {
    if t.duration.Some? then t.duration else oracle(Question(t.description))
  }

  /** An oracle whose answer never parses as an integer. */
  function NoAnswer(question: string): Option<int> {
    None
  }

  /** A task placed whole at `start` with its resolved duration `d`. */
  function Whole(t: Task, start: int, d: int): Item {
    Item(start, start + d, d, t.description, TaskItem(t.dueDate, t.priority))
  }

  /** The first part of a split task: it takes the `remaining` minutes of the interval. */
  function PartOne(t: Task, start: int, remaining: int): Item {
    Item(start, start + remaining, remaining, t.description + PartOneSuffix, TaskItem(t.dueDate, t.priority))
  }

  /** The second part of a split task: what is left of its resolved duration `d`. */
  function PartTwo(t: Task, d: int, remaining: int): Task {
    t.(description := t.description + PartTwoSuffix, duration := Some(d - remaining))
  }

  /** Minutes of work in a task, counting a task the oracle cannot size as none. */
  function Size(t: Task, oracle: Oracle): int {
    match Resolve(t, oracle) case Some(d) => d case None => 0
  }

  /** Minutes of work the pool holds. */
  function Work(pool: seq<Task>, oracle: Oracle): int {
    if pool == [] then 0 else Size(pool[0], oracle) + Work(pool[1..], oracle)
  }

  /** The tasks of the pool whose duration cannot be resolved, in pool order. */
  function Unknown(pool: seq<Task>, oracle: Oracle): seq<Task> {
    if pool == [] then []
    else (if Resolve(pool[0], oracle).None? then [pool[0]] else []) + Unknown(pool[1..], oracle)
  }

  /** Every resolvable task of the pool placed whole, end to end from `start`, in pool order. */
  function LayOut(pool: seq<Task>, start: int, oracle: Oracle): seq<Item> {
    if pool == [] then []
    else match Resolve(pool[0], oracle)
      case None => LayOut(pool[1..], start, oracle)
      case Some(d) => [Whole(pool[0], start, d)] + LayOut(pool[1..], start + d, oracle)
  }

  /** No task of the pool has a resolvable duration. */
  predicate AllUnknown(pool: seq<Task>, oracle: Oracle) {
    pool == [] || (Resolve(pool[0], oracle).None? && AllUnknown(pool[1..], oracle))
  }

  /** No task of the pool resolves to a negative duration. */
  predicate NonNegative(pool: seq<Task>, oracle: Oracle) {
    pool == [] || ((Resolve(pool[0], oracle).Some? ==> Resolve(pool[0], oracle).value >= 0) && NonNegative(pool[1..], oracle))
  }

  /** The items placed into one interval and the pool left behind. */
  datatype Allocation = Allocation(placed: seq<Item>, pool: seq<Task>)

  /**
    Fills the interval of `available` minutes starting at `current` with tasks
    of `pool`, considered in pool order: a task without a resolvable duration
    is skipped and stays; a task that fits is placed whole and leaves the pool;
    the first task that does not fit is split and the allocation ends.
   */
  function Allocate(pool: seq<Task>, available: int, current: int, oracle: Oracle): Allocation
    decreases |pool|
  {
    if pool == [] || available == 0 then Allocation([], pool)
    else
      var t := pool[0];
      match Resolve(t, oracle)
      case None =>
        var rest := Allocate(pool[1..], available, current, oracle);
        Allocation(rest.placed, [t] + rest.pool)
      case Some(d) =>
        if d <= available then
          var rest := Allocate(pool[1..], available - d, current + d, oracle);
          Allocation([Whole(t, current, d)] + rest.placed, rest.pool)
        else
          Allocation([PartOne(t, current, available)], [PartTwo(t, d, available)] + pool[1..])
  }

  // Unfoldings: one step of Allocate for each way the first task resolves,
  // stated once so that the lemmas below can name the step they take.

  /** One unfolding of Allocate when the first task cannot be sized. */
  lemma AllocateSkips(pool: seq<Task>, available: int, current: int, oracle: Oracle)
    requires pool != [] && available != 0 && Resolve(pool[0], oracle).None?
    ensures
      var r := Allocate(pool[1..], available, current, oracle);
      Allocate(pool, available, current, oracle) == Allocation(r.placed, [pool[0]] + r.pool)
  {
  }

  /** One unfolding of Allocate when the first task fits. */
  lemma AllocatePlaces(pool: seq<Task>, available: int, current: int, oracle: Oracle, d: int)
    requires pool != [] && available != 0
    requires Resolve(pool[0], oracle) == Some(d) && d <= available
    ensures
      var r := Allocate(pool[1..], available - d, current + d, oracle);
      Allocate(pool, available, current, oracle) == Allocation([Whole(pool[0], current, d)] + r.placed, r.pool)
  {
  }

  /** One unfolding of Allocate when the first task overflows the interval. */
  lemma AllocateSplits(pool: seq<Task>, available: int, current: int, oracle: Oracle, d: int)
    requires pool != [] && available != 0
    requires Resolve(pool[0], oracle) == Some(d) && available < d
    ensures Allocate(pool, available, current, oracle)
      == Allocation([PartOne(pool[0], current, available)], [PartTwo(pool[0], d, available)] + pool[1..])
  {
  }

  /** The placed items are task items laid end to end from the start of the interval. */
  lemma {:induction false} AllocateLaysOut(pool: seq<Task>, available: int, current: int, oracle: Oracle)
    ensures var r := Allocate(pool, available, current, oracle);
      BackToBack(r.placed, current) && AllTasks(r.placed)
    decreases |pool|
  {
    if pool != [] && available != 0 {
      match Resolve(pool[0], oracle)
      case None =>
        AllocateLaysOut(pool[1..], available, current, oracle);
        AllocateSkips(pool, available, current, oracle);
      case Some(d) =>
        if d <= available {
          var rest := Allocate(pool[1..], available - d, current + d, oracle);
          AllocateLaysOut(pool[1..], available - d, current + d, oracle);
          AllocatePlaces(pool, available, current, oracle, d);
          PlacedInFront(Whole(pool[0], current, d), rest.placed);
        } else {
          AllocateSplits(pool, available, current, oracle, d);
          assert [PartOne(pool[0], current, available)][1..] == [];
        }
    }
  }

  lemma PlacedInFront(x: Item, rest: seq<Item>)
    requires x.kind.TaskItem? && AllTasks(rest)
    requires BackToBack(rest, x.start + x.duration) && x.end == x.start + x.duration
    ensures BackToBack([x] + rest, x.start) && AllTasks([x] + rest)
  {
    assert ([x] + rest)[1..] == rest;
  }

  /** Allocate conserves the pool's work and its unsizable tasks (see Conserves). */
  lemma {:induction false} AllocateConserves(pool: seq<Task>, available: int, current: int, oracle: Oracle)
    ensures Conserves(pool, available, Allocate(pool, available, current, oracle), oracle)
    decreases |pool|
  {
    if pool != [] && available != 0 {
      match Resolve(pool[0], oracle)
      case None =>
        AllocateConserves(pool[1..], available, current, oracle);
        ConservesSkipped(pool, available, current, oracle);
      case Some(d) =>
        if d <= available {
          AllocateConserves(pool[1..], available - d, current + d, oracle);
          ConservesPlaced(pool, available, current, oracle, d);
        } else {
          ConservesSplit(pool, available, current, oracle, d);
        }
    }
  }

  /**
    The allocation `r` of `pool` into `available` minutes loses or invents no
    minute of work, keeps the tasks the oracle cannot size in their order, and
    does not overfill a non-negative interval.
   */
  predicate Conserves(pool: seq<Task>, available: int, r: Allocation, oracle: Oracle) {
    && Work(pool, oracle) == TotalDuration(r.placed) + Work(r.pool, oracle)
    && Unknown(r.pool, oracle) == Unknown(pool, oracle)
    && (0 <= available ==> TotalDuration(r.placed) <= available)
  }

  lemma ConservesSkipped(pool: seq<Task>, available: int, current: int, oracle: Oracle)
    requires pool != [] && available != 0 && Resolve(pool[0], oracle).None?
    requires Conserves(pool[1..], available, Allocate(pool[1..], available, current, oracle), oracle)
    ensures Conserves(pool, available, Allocate(pool, available, current, oracle), oracle)
  {
    var rest := Allocate(pool[1..], available, current, oracle);
    AllocateSkips(pool, available, current, oracle);
    ConsUnsized(pool[0], rest.pool, oracle);
  }

  lemma ConservesPlaced(pool: seq<Task>, available: int, current: int, oracle: Oracle, d: int)
    requires pool != [] && available != 0 && Resolve(pool[0], oracle) == Some(d) && d <= available
    requires Conserves(pool[1..], available - d, Allocate(pool[1..], available - d, current + d, oracle), oracle)
    ensures Conserves(pool, available, Allocate(pool, available, current, oracle), oracle)
  {
    var rest := Allocate(pool[1..], available - d, current + d, oracle);
    AllocatePlaces(pool, available, current, oracle, d);
    assert ([Whole(pool[0], current, d)] + rest.placed)[1..] == rest.placed;
  }

  lemma ConservesSplit(pool: seq<Task>, available: int, current: int, oracle: Oracle, d: int)
    requires pool != [] && available != 0 && Resolve(pool[0], oracle) == Some(d) && available < d
    ensures Conserves(pool, available, Allocate(pool, available, current, oracle), oracle)
  {
    AllocateSplits(pool, available, current, oracle, d);
    ConsSized(PartTwo(pool[0], d, available), pool[1..], oracle, d - available);
    assert [PartOne(pool[0], current, available)][1..] == [];
  }

  lemma ConsUnsized(t: Task, pool: seq<Task>, oracle: Oracle)
    requires Resolve(t, oracle).None?
    ensures Work([t] + pool, oracle) == Work(pool, oracle)
    ensures Unknown([t] + pool, oracle) == [t] + Unknown(pool, oracle)
  {
    assert ([t] + pool)[0] == t && ([t] + pool)[1..] == pool;
  }

  lemma ConsSized(t: Task, pool: seq<Task>, oracle: Oracle, d: int)
    requires Resolve(t, oracle) == Some(d)
    ensures Work([t] + pool, oracle) == d + Work(pool, oracle)
    ensures Unknown([t] + pool, oracle) == Unknown(pool, oracle)
  {
    assert ([t] + pool)[0] == t && ([t] + pool)[1..] == pool;
    assert Unknown([t] + pool, oracle) == [] + Unknown(pool, oracle);
  }

  /**
    Every placed item but at most one took a task out of the pool, and when
    one did not (the first part of a split) the interval is filled exactly.
   */
  lemma {:induction false} AllocateCounts(pool: seq<Task>, available: int, current: int, oracle: Oracle)
    ensures var r := Allocate(pool, available, current, oracle);
      && |pool| - |r.pool| <= |r.placed| <= |pool| - |r.pool| + 1
      && (|r.placed| == |pool| - |r.pool| + 1 ==> TotalDuration(r.placed) == available)
    decreases |pool|
  {
    if pool != [] && available != 0 {
      var t := pool[0];
      match Resolve(t, oracle)
      case None =>
        AllocateCounts(pool[1..], available, current, oracle);
        AllocateSkips(pool, available, current, oracle);
      case Some(d) =>
        if d <= available {
          var rest := Allocate(pool[1..], available - d, current + d, oracle);
          AllocateCounts(pool[1..], available - d, current + d, oracle);
          AllocatePlaces(pool, available, current, oracle, d);
          assert ([Whole(t, current, d)] + rest.placed)[1..] == rest.placed;
        } else {
          AllocateSplits(pool, available, current, oracle, d);
          assert [PartOne(t, current, available)][1..] == [];
        }
    }
  }

  /**
    An empty interval leaves everything as it was; a non-empty one gets
    nothing exactly when no task's duration resolves, and then the pool is kept.
   */
  lemma {:induction false} AllocateEmpty(pool: seq<Task>, available: int, current: int, oracle: Oracle)
    ensures var r := Allocate(pool, available, current, oracle);
      && (available == 0 ==> r == Allocation([], pool))
      && (available != 0 ==> (r.placed == [] <==> AllUnknown(pool, oracle)))
      && (AllUnknown(pool, oracle) ==> r.pool == pool)
    decreases |pool|
  {
    if pool != [] && available != 0 {
      var t := pool[0];
      match Resolve(t, oracle)
      case None =>
        AllocateEmpty(pool[1..], available, current, oracle);
        AllocateSkips(pool, available, current, oracle);
        assert pool == [t] + pool[1..];
      case Some(d) =>
        if d <= available {
          AllocatePlaces(pool, available, current, oracle, d);
        } else {
          AllocateSplits(pool, available, current, oracle, d);
        }
    }
  }

  /*
    The two lemmas below describe the outcome of Allocate without following its
    step-by-step recursion, for pools whose durations are not negative: the
    interval is either left under-filled, with every sizable task placed whole,
    or filled at the task that makes the pool's running work reach it.
   */

  lemma {:induction false} WorkNonNegative(pool: seq<Task>, oracle: Oracle)
    requires NonNegative(pool, oracle)
    ensures Work(pool, oracle) >= 0
  {
    if pool != [] {
      WorkNonNegative(pool[1..], oracle);
    }
  }

  lemma {:induction false} NonNegativePrefix(pool: seq<Task>, oracle: Oracle, k: nat)
    requires NonNegative(pool, oracle)
    requires k <= |pool|
    ensures NonNegative(pool[..k], oracle)
  {
    if k > 0 {
      assert pool[..k][0] == pool[0];
      assert pool[..k][1..] == pool[1..][..k - 1];
      NonNegativePrefix(pool[1..], oracle, k - 1);
    }
  }

  /**
    When the pool holds less work than the interval, every task with a
    resolvable duration is placed whole, in pool order, and the pool keeps
    exactly the tasks the oracle could not size.
   */
  lemma {:induction false} AllocateUnderfilled(pool: seq<Task>, available: int, current: int, oracle: Oracle)
    requires NonNegative(pool, oracle)
    requires Work(pool, oracle) < available
    ensures Allocate(pool, available, current, oracle) == Allocation(LayOut(pool, current, oracle), Unknown(pool, oracle))
  {
    WorkNonNegative(pool, oracle);
    if pool != [] {
      WorkNonNegative(pool[1..], oracle);
      if Resolve(pool[0], oracle).None? {
        AllocateUnderfilled(pool[1..], available, current, oracle);
        UnderfilledStepSkipped(pool, available, current, oracle);
      } else {
        var d := Resolve(pool[0], oracle).value;
        assert d <= available;
        AllocateUnderfilled(pool[1..], available - d, current + d, oracle);
        UnderfilledStepPlaced(pool, available, current, oracle, d);
      }
    }
  }

  lemma UnderfilledStepSkipped(pool: seq<Task>, available: int, current: int, oracle: Oracle)
    requires pool != [] && available != 0 && Resolve(pool[0], oracle).None?
    requires Allocate(pool[1..], available, current, oracle) == Allocation(LayOut(pool[1..], current, oracle), Unknown(pool[1..], oracle))
    ensures Allocate(pool, available, current, oracle) == Allocation(LayOut(pool, current, oracle), Unknown(pool, oracle))
  {
    AllocateSkips(pool, available, current, oracle);
    assert LayOut(pool, current, oracle) == LayOut(pool[1..], current, oracle);
    assert Unknown(pool, oracle) == [pool[0]] + Unknown(pool[1..], oracle);
  }

  lemma UnderfilledStepPlaced(pool: seq<Task>, available: int, current: int, oracle: Oracle, d: int)
    requires pool != [] && available != 0 && Resolve(pool[0], oracle) == Some(d) && d <= available
    requires Allocate(pool[1..], available - d, current + d, oracle) == Allocation(LayOut(pool[1..], current + d, oracle), Unknown(pool[1..], oracle))
    ensures Allocate(pool, available, current, oracle) == Allocation(LayOut(pool, current, oracle), Unknown(pool, oracle))
  {
    AllocatePlaces(pool, available, current, oracle, d);
    assert LayOut(pool, current, oracle) == [Whole(pool[0], current, d)] + LayOut(pool[1..], current + d, oracle);
    assert Unknown(pool, oracle) == [] + Unknown(pool[1..], oracle) == Unknown(pool[1..], oracle);
  }

  /**
    The allocation that ends at task `k` of the pool: the tasks before it placed
    whole or skipped, task `k` placed whole when it fills the rest of the
    interval exactly and split otherwise, and the tasks after it untouched.
   */
  function FillOutcome(pool: seq<Task>, available: int, current: int, oracle: Oracle, k: nat): Allocation
    requires k < |pool|
  {
    var d := Size(pool[k], oracle);
    var used := Work(pool[..k], oracle);
    var rem := available - used;
    if d == rem then
      Allocation(LayOut(pool[..k], current, oracle) + [Whole(pool[k], current + used, d)],
                 Unknown(pool[..k], oracle) + pool[k + 1..])
    else
      Allocation(LayOut(pool[..k], current, oracle) + [PartOne(pool[k], current + used, rem)],
                 Unknown(pool[..k], oracle) + [PartTwo(pool[k], d, rem)] + pool[k + 1..])
  }

  /** How the prefix sums of a pool relate to those of its tail. */
  lemma PrefixOfTail(pool: seq<Task>, current: int, oracle: Oracle, k: nat)
    requires 0 < k <= |pool|
    ensures Work(pool[..k], oracle) == Size(pool[0], oracle) + Work(pool[1..][..k - 1], oracle)
    ensures Resolve(pool[0], oracle).None? ==>
      && Unknown(pool[..k], oracle) == [pool[0]] + Unknown(pool[1..][..k - 1], oracle)
      && LayOut(pool[..k], current, oracle) == LayOut(pool[1..][..k - 1], current, oracle)
    ensures Resolve(pool[0], oracle).Some? ==>
      var d := Resolve(pool[0], oracle).value;
      && Unknown(pool[..k], oracle) == Unknown(pool[1..][..k - 1], oracle)
      && LayOut(pool[..k], current, oracle) == [Whole(pool[0], current, d)] + LayOut(pool[1..][..k - 1], current + d, oracle)
  {
    assert pool[..k][0] == pool[0];
    assert pool[..k][1..] == pool[1..][..k - 1];
    assert [] + Unknown(pool[1..][..k - 1], oracle) == Unknown(pool[1..][..k - 1], oracle);
  }

  /** The prefix sums alone. */
  lemma WorkPrefixOfTail(pool: seq<Task>, oracle: Oracle, k: nat)
    requires 0 < k <= |pool|
    ensures Work(pool[..k], oracle) == Size(pool[0], oracle) + Work(pool[1..][..k - 1], oracle)
  {
    assert pool[..k][0] == pool[0];
    assert pool[..k][1..] == pool[1..][..k - 1];
  }

  /** The fill outcome past a first task the oracle cannot size keeps that task in the pool. */
  lemma FillOutcomeSkip(pool: seq<Task>, available: int, current: int, oracle: Oracle, k: nat)
    requires 0 < k < |pool| && Resolve(pool[0], oracle).None?
    ensures
      var r := FillOutcome(pool[1..], available, current, oracle, k - 1);
      FillOutcome(pool, available, current, oracle, k) == Allocation(r.placed, [pool[0]] + r.pool)
  {
    PrefixOfTail(pool, current, oracle, k);
    assert pool[1..][k - 1] == pool[k];
    assert pool[1..][k - 1 + 1..] == pool[k + 1..];
  }

  /** The fill outcome past a first task of `d` minutes places that task first. */
  lemma FillOutcomePlace(pool: seq<Task>, available: int, current: int, oracle: Oracle, k: nat, d: int)
    requires 0 < k < |pool| && Resolve(pool[0], oracle) == Some(d)
    ensures
      var r := FillOutcome(pool[1..], available - d, current + d, oracle, k - 1);
      FillOutcome(pool, available, current, oracle, k) == Allocation([Whole(pool[0], current, d)] + r.placed, r.pool)
  {
    PrefixOfTail(pool, current, oracle, k);
    assert pool[1..][k - 1] == pool[k];
    assert pool[1..][k - 1 + 1..] == pool[k + 1..];
  }

  /** The first task alone reaches the interval: it is placed whole or split. */
  lemma FillAtHead(pool: seq<Task>, available: int, current: int, oracle: Oracle)
    requires pool != []
    requires 0 < available
    requires Resolve(pool[0], oracle).Some? && available <= Resolve(pool[0], oracle).value
    ensures Allocate(pool, available, current, oracle) == FillOutcome(pool, available, current, oracle, 0)
  {
    assert pool[..0] == [];
  }

  /** The first task of a pool without negative durations is not negative, nor is the rest. */
  lemma NonNegativeTail(pool: seq<Task>, oracle: Oracle)
    requires NonNegative(pool, oracle) && pool != []
    ensures NonNegative(pool[1..], oracle)
    ensures 0 <= Size(pool[0], oracle)
  {
  }

  /** The sums that place the fill point of a pool one task further into its tail. */
  lemma FillPointOfTail(pool: seq<Task>, available: int, oracle: Oracle, k: nat)
    requires 0 < k < |pool|
    requires NonNegative(pool[1..], oracle) && 0 <= Size(pool[0], oracle)
    requires Work(pool[..k], oracle) < available <= Work(pool[..k + 1], oracle)
    ensures 0 <= Size(pool[0], oracle) < available
    ensures Work(pool[1..][..k - 1], oracle) < available - Size(pool[0], oracle) <= Work(pool[1..][..k], oracle)
  {
    WorkPrefixOfTail(pool, oracle, k + 1);
    WorkPrefixOfTail(pool, oracle, k);
    NonNegativePrefix(pool[1..], oracle, k - 1);
    WorkNonNegative(pool[1..][..k - 1], oracle);
  }

  lemma FillStepSkipped(pool: seq<Task>, available: int, current: int, oracle: Oracle, k: nat)
    requires 0 < k < |pool| && available != 0
    requires Resolve(pool[0], oracle).None?
    requires Allocate(pool[1..], available, current, oracle) == FillOutcome(pool[1..], available, current, oracle, k - 1)
    ensures Allocate(pool, available, current, oracle) == FillOutcome(pool, available, current, oracle, k)
  {
    FillOutcomeSkip(pool, available, current, oracle, k);
    AllocateSkips(pool, available, current, oracle);
  }

  lemma FillStepPlaced(pool: seq<Task>, available: int, current: int, oracle: Oracle, k: nat, d: int)
    requires 0 < k < |pool| && available != 0
    requires Resolve(pool[0], oracle) == Some(d) && d <= available
    requires Allocate(pool[1..], available - d, current + d, oracle) == FillOutcome(pool[1..], available - d, current + d, oracle, k - 1)
    ensures Allocate(pool, available, current, oracle) == FillOutcome(pool, available, current, oracle, k)
  {
    FillOutcomePlace(pool, available, current, oracle, k, d);
    AllocatePlaces(pool, available, current, oracle, d);
  }

  /**
    When task `k` is the one at which the pool's running work first reaches
    the interval, Allocate ends at task `k` as FillOutcome describes.
   */
  lemma {:induction false} AllocateAtFillPoint(pool: seq<Task>, available: int, current: int, oracle: Oracle, k: nat)
    requires NonNegative(pool, oracle)
    requires k < |pool|
    requires Work(pool[..k], oracle) < available <= Work(pool[..k + 1], oracle)
    ensures Resolve(pool[k], oracle).Some?
    ensures Allocate(pool, available, current, oracle) == FillOutcome(pool, available, current, oracle, k)
  {
    if k == 0 {
      PrefixOfTail(pool, current, oracle, 1);
      assert pool[..0] == [] && pool[1..][..0] == [];
      FillAtHead(pool, available, current, oracle);
    } else {
      NonNegativeTail(pool, oracle);
      FillPointOfTail(pool, available, oracle, k);
      assert pool[1..][k - 1] == pool[k];
      if Resolve(pool[0], oracle).None? {
        AllocateAtFillPoint(pool[1..], available, current, oracle, k - 1);
        FillStepSkipped(pool, available, current, oracle, k);
      } else {
        var d0 := Resolve(pool[0], oracle).value;
        assert d0 == Size(pool[0], oracle);
        AllocateAtFillPoint(pool[1..], available - d0, current + d0, oracle, k - 1);
        FillStepPlaced(pool, available, current, oracle, k, d0);
      }
    }
  }
}

=== FILE: allocator_as_written.dfy ===
/**
  The allocation loop as the Python source runs it: a list iterator walks the
  pool by position while the loop body removes the placed task from the same
  list, so the task that moves into the freed position is never visited. The
  second part of a split goes where `list.index` finds the visited task: at
  the first entry equal to it.
 */
module AllocatorAsWritten {
  import opened Wrappers
  import opened Timeline
  import opened Allocator

  /**
    Where `tasks.index(task)` finds the visited task `key` at position `i`: the
    first earlier entry equal to it, else `i` itself.
   */
  function FirstEqual(pool: seq<Task>, key: Task, i: nat): (j: nat)
    requires i < |pool|
    ensures j <= i
    ensures j < i ==> pool[j] == key
    ensures forall k :: 0 <= k < j ==> pool[k] != key
  {
    if exists k :: 0 <= k < i && pool[k] == key then FirstEqualFrom(pool, key, 0, i) else i
  }

  function FirstEqualFrom(pool: seq<Task>, key: Task, from: nat, i: nat): (j: nat)
    requires from <= i < |pool|
    requires forall k :: 0 <= k < from ==> pool[k] != key
    requires exists k :: from <= k < i && pool[k] == key
    ensures from <= j < i && pool[j] == key
    ensures forall k :: 0 <= k < j ==> pool[k] != key
    decreases i - from
  {
    if pool[from] == key then from else FirstEqualFrom(pool, key, from + 1, i)
  }

  /**
    The loop with its iterator at position `i` of the current `pool`.
    `tasks.remove(task)` removes the visited entry itself, since only the
    placed task carries a start and an end. A task sized by the oracle has the
    answer written into its duration before `tasks.index` compares it.
   */
  function AllocateAsWritten(pool: seq<Task>, i: nat, available: int, current: int, oracle: Oracle): (r: Allocation)
    ensures |r.pool| <= |pool|
    ensures 0 <= available ==> TotalDuration(r.placed) <= available
    decreases |pool| - i
  {
    if i >= |pool| || available == 0 then Allocation([], pool)
    else
      var t := pool[i];
      match Resolve(t, oracle)
      case None => AllocateAsWritten(pool, i + 1, available, current, oracle)
      case Some(d) =>
        if d <= available then
          var rest := AllocateAsWritten(pool[..i] + pool[i + 1..], i + 1, available - d, current + d, oracle);
          assert ([Whole(t, current, d)] + rest.placed)[1..] == rest.placed;
          Allocation([Whole(t, current, d)] + rest.placed, rest.pool)
        else
          var j := FirstEqual(pool, t.(duration := Some(d)), i);
          var rest := AllocateAsWritten(pool[j := PartTwo(t, d, available)], i + 1, 0, current, oracle);
          Allocation([PartOne(t, current, available)] + rest.placed, rest.pool)
  }

  /**
    Two ten-minute tasks and a twenty-minute interval: as written, the loop
    places the first task, the second slides into the position the iterator
    has already passed, and ten minutes of the interval stay empty although the
    second task fits. Allocate places both and fills the interval.
   */
  lemma AsWrittenSkipsTaskAfterRemoval()
    ensures
      var a := Task("a", Some(10), None, None);
      var b := Task("b", Some(10), None, None);
      && AllocateAsWritten([a, b], 0, 20, 0, NoAnswer) == Allocation([Whole(a, 0, 10)], [b])
      && Allocate([a, b], 20, 0, NoAnswer) == Allocation([Whole(a, 0, 10), Whole(b, 10, 10)], [])
  {
    var a := Task("a", Some(10), None, None);
    var b := Task("b", Some(10), None, None);
    assert [a, b][..0] + [a, b][1..] == [b];
    assert [a, b][1..] == [b];
    assert [b][1..] == [];
    assert Allocate([b], 10, 10, NoAnswer) == Allocation([Whole(b, 10, 10)], []);
  }

  /**
    A ten-minute task and two equal fifty-minute tasks in a thirty-minute
    interval: once the first task is placed the iterator visits the second
    fifty-minute task, splits it, and `tasks.index` puts its second part in
    place of the first of the two equal tasks.
   */
  lemma AsWrittenSplitReplacesFirstEqual()
    ensures
      var a := Task("a", Some(10), None, None);
      var b := Task("b", Some(50), None, None);
      AllocateAsWritten([a, b, b], 0, 30, 0, NoAnswer)
        == Allocation([Whole(a, 0, 10), PartOne(b, 10, 20)], [PartTwo(b, 50, 20), b])
  {
    var a := Task("a", Some(10), None, None);
    var b := Task("b", Some(50), None, None);
    assert [a, b, b][..0] + [a, b, b][1..] == [b, b];
    assert b.(duration := Some(50)) == b;
    assert [b, b][0] == b;
    assert FirstEqual([b, b], b, 1) == 0;
    var left := [b, b][0 := PartTwo(b, 50, 20)];
    assert left == [PartTwo(b, 50, 20), b];
    assert AllocateAsWritten(left, 2, 0, 10, NoAnswer) == Allocation([], left);
    assert AllocateAsWritten([b, b], 1, 20, 10, NoAnswer) == Allocation([PartOne(b, 10, 20)], left);
  }
}

=== FILE: clock.dfy ===
/**
  Clock arithmetic on "HH:MM" times: the end time of a task from its start
  and its duration in minutes, computed two ways in the source, and the
  two-digit formatting of clock fields.
 */
module Clock {
  import opened Wrappers
  import opened Text

  /** An hour and a minute; neither is reduced, so hours past 23 can occur. */
  datatype ClockTime = ClockTime(hour: int, minute: int)

  function Minutes(c: ClockTime): int {
    c.hour * 60 + c.minute
  }

  /**
    The end of a task that starts at `startHour:startMinute` and lasts
    `duration` minutes: whole hours of the duration go to the hour, the rest
    to the minute, with one carry when the minute reaches 60. Python's divmod
    by 60 floors; for a positive divisor Dafny's division does the same.
   */
  function CalculateEndTime(startHour: int, startMinute: int, duration: int): (r: ClockTime)
    ensures Minutes(r) == startHour * 60 + startMinute + duration
    ensures 0 <= startMinute < 60 ==> 0 <= r.minute < 60
    // there is no wrap at midnight: a non-negative duration never ends before the start
    ensures 0 <= startMinute < 60 && 0 <= duration ==> startHour <= r.hour && Minutes(r) >= startHour * 60 + startMinute
  {
    var durationHours, durationMinutes := duration / 60, duration % 60;
    var endHour, endMinute := startHour + durationHours, startMinute + durationMinutes;
    if endMinute >= 60 then ClockTime(endHour + 1, endMinute - 60) else ClockTime(endHour, endMinute)
  }

  /**
    The end time as the schedule-line reformatting computes it: the start and
    the duration in total minutes, then floor division and remainder by 60.
   */
  function ReformatEnd(startHour: nat, startMinute: nat, duration: nat): (r: ClockTime)
    ensures 0 <= r.minute < 60 && 0 <= r.hour
    ensures Minutes(r) == startHour * 60 + startMinute + duration
  {
    var total := startHour * 60 + startMinute + duration;
    ClockTime(total / 60, total % 60)
  }

  /** For a start minute below 60 both ways of computing the end time agree. */
  lemma ReformatAgreesWithCalculate(startHour: nat, startMinute: nat, duration: nat)
    requires startMinute < 60
    ensures ReformatEnd(startHour, startMinute, duration) == CalculateEndTime(startHour, startMinute, duration)
  {
    var a := ReformatEnd(startHour, startMinute, duration);
    var b := CalculateEndTime(startHour, startMinute, duration);
    MinutesDetermineClock(a, b);
  }

  /** Two clock times with minutes in [0, 60) and the same total are the same time. */
  lemma MinutesDetermineClock(a: ClockTime, b: ClockTime)
    requires 0 <= a.minute < 60 && 0 <= b.minute < 60
    requires Minutes(a) == Minutes(b)
    ensures a == b
  {
    var dh := a.hour - b.hour;
    assert dh * 60 == b.minute - a.minute;
  }

  /** Python's `f"{n:02d}"`: at least two digits, zero-padded; a sign counts towards the width. */
  function Pad2(n: int): string {
    if n < 0 then "-" + Decimal(-n) else if n < 10 then "0" + Decimal(n) else Decimal(n)
  }

  /** `f"{hour:02d}:{minute:02d}"`. */
  function FormatClock(c: ClockTime): string {
    Pad2(c.hour) + ":" + Pad2(c.minute)
  }

  /** `int()` reads a padded field back as the number it came from; it has two digits exactly below 100. */
  lemma Pad2RoundTrip(n: int)
    ensures ParseInt(Pad2(n)) == Some(n)
    ensures ':' !in Pad2(n)
    ensures 0 <= n ==> AllDigits(Pad2(n)) && |Pad2(n)| >= 2 && DecimalValue(Pad2(n)) == n
    ensures 0 <= n ==> (|Pad2(n)| == 2 <==> n < 100)
  {
    if n < 0 {
      DecimalRoundTrip(-n);
      assert Pad2(n)[1..] == Decimal(-n);
      assert ':' !in Decimal(-n) by { assert AllDigits(Decimal(-n)); }
    } else if n < 10 {
      DecimalRoundTrip(n);
      LeadingZero(Decimal(n));
    } else {
      DecimalRoundTrip(n);
      var p := Pad2(n);
      assert p[0] != '-' && p[0] != '+' by { assert IsDigit(p[0]); }
    }
    assert forall i :: 0 <= i < |Pad2(n)| ==> Pad2(n)[i] != ':' by {
      if n >= 0 {
        assert AllDigits(Pad2(n));
      }
    }
  }

  /** `map(int, text.split(':'))` into an hour and a minute; None where Python raises. */
  function ParseClock(text: string): Option<ClockTime> {
    var fields := Split(text, ":");
    if |fields| != 2 then None
    else match (ParseInt(fields[0]), ParseInt(fields[1]))
      case (Some(h), Some(m)) => Some(ClockTime(h, m))
      case _ => None
  }

  /** Reading a formatted clock time gives it back. */
  lemma ParseFormatClock(c: ClockTime)
    ensures ParseClock(FormatClock(c)) == Some(c)
  {
    Pad2RoundTrip(c.hour);
    Pad2RoundTrip(c.minute);
    CharAfter(Pad2(c.hour), ':', Pad2(c.minute));
    SplitAt(Pad2(c.hour), ":", Pad2(c.minute));
    CharWhole(Pad2(c.minute), ':');
    SplitWhole(Pad2(c.minute), ":");
  }

  /**
    `calculate_end_time(start_time, duration)` on its two strings: the start
    as "H:M" and the duration with its last character (the unit) dropped.
    None where Python raises.
   */
  function EndTimeText(startTime: string, duration: string): Option<string> {
    var amount := if duration == [] then [] else duration[..|duration| - 1];
    match (ParseClock(startTime), ParseInt(amount))
    case (Some(start), Some(d)) => Some(FormatClock(CalculateEndTime(start.hour, start.minute, d)))
    case _ => None
  }

  /** A formatted start and a "<digits>m" duration give the formatted end of the reformatting arithmetic. */
  lemma EndTimeTextOfFormatted(start: ClockTime, digits: string)
    requires 0 <= start.hour && 0 <= start.minute < 60
    requires digits != [] && AllDigits(digits)
    ensures EndTimeText(FormatClock(start), digits + "m")
      == Some(FormatClock(ReformatEnd(start.hour, start.minute, DecimalValue(digits))))
  {
    ParseFormatClock(start);
    var d := digits + "m";
    assert d[..|d| - 1] == digits;
    ParseDigits(digits);
    ReformatAgreesWithCalculate(start.hour, start.minute, DecimalValue(digits));
  }

  /**
    With a start minute of 60 or more the single carry is not enough: 9:75
    plus 50 minutes ends at "10:65", where the total-minutes arithmetic
    gives 11:05.
   */
  lemma CalculateEndTimeCarriesOnce()
    ensures CalculateEndTime(9, 75, 50) == ClockTime(10, 65)
    ensures Minutes(ClockTime(10, 65)) == 9 * 60 + 75 + 50
    ensures ReformatEnd(9, 75, 50) == ClockTime(11, 5)
  {
  }

  /** The same input as text: the end-time text of "9:75" and "50m" is "10:65". */
  lemma EndTimeTextCarriesOnce()
    ensures EndTimeText("9:75", "50m") == Some("10:65")
  {
    NineSeventyFive();
    assert "50m"[..2] == "50";
    ParseDigits("50");
    assert DecimalValue("50") == 50;
    CalculateEndTimeCarriesOnce();
    assert Decimal(10) == "10" && Decimal(65) == "65";
    assert FormatClock(ClockTime(10, 65)) == "10:65";
  }

  lemma NineSeventyFive()
    ensures ParseClock("9:75") == Some(ClockTime(9, 75))
  {
    ParseDigits("9");
    ParseDigits("75");
    CharAfter("9", ':', "75");
    SplitAt("9", ":", "75");
    CharWhole("75", ':');
    SplitWhole("75", ":");
    assert "9" + ":" + "75" == "9:75";
  }
}

=== FILE: schedule_lines.dfy ===
/**
  The schedule-line pipeline of the newer assistant: the reply text is cut
  into lines, each line that starts with `(\d+:\d+),\s*(\d+)m,\s*(.+)` is
  rewritten as "HH:MM-HH:MM, <n>m, <description>", and the rewritten lines
  are then checked field by field.
 */
module ScheduleLines {
  import opened Wrappers
  import opened Text
  import opened Clock

  /** The three groups of a matched line, the start time kept as its hour and minute digits. */
  datatype LineMatch = LineMatch(hourDigits: string, minuteDigits: string, durationDigits: string, description: string)

  predicate WellFormed(m: LineMatch) {
    && m.hourDigits != [] && AllDigits(m.hourDigits)
    && m.minuteDigits != [] && AllDigits(m.minuteDigits)
    && m.durationDigits != [] && AllDigits(m.durationDigits)
    && m.description != [] && '\n' !in m.description
  }

  /** The length of the prefix of `s` that `.` can consume: everything before the first line feed. */
  function LineRun(s: string): (n: nat)
    ensures n <= |s|
    ensures '\n' !in s[..n]
    ensures n < |s| ==> s[n] == '\n'
  {
    if s == [] || s[0] == '\n' then 0
    else
      var n := 1 + LineRun(s[1..]);
      assert s[..n] == [s[0]] + s[1..][..n - 1];
      n
  }

  lemma LineRunOf(a: string, b: string)
    requires '\n' !in a
    requires b == [] || b[0] == '\n'
    ensures LineRun(a + b) == |a|
  {
    var s := a + b;
    var n := LineRun(s);
    forall i | 0 <= i < |a| ensures s[i] != '\n' {
      assert s[i] == a[i] && a[i] in a;
    }
    forall i | 0 <= i < n ensures s[i] != '\n' {
      assert s[..n][i] == s[i];
    }
    assert b != [] ==> s[|a|] == '\n';
  }

  /**
    Where `.+` can start after a greedy `\s*` has taken `k` characters and
    gives them back one at a time: the last position up to `k` that is not a
    line feed.
   */
  function GiveBack(s: string, k: nat): (r: Option<nat>)
    requires k <= |s|
    ensures r.Some? ==> r.value <= k && r.value < |s| && s[r.value] != '\n'
    decreases k
  {
    if k < |s| && s[k] != '\n' then Some(k)
    else if k == 0 then None
    else GiveBack(s, k - 1)
  }

  /** Giving back stops at the first position that `.` can take, and fails only when there is none. */
  lemma {:induction false} GiveBackLast(s: string, k: nat)
    requires k <= |s|
    ensures var r := GiveBack(s, k);
      forall j :: (if r.Some? then r.value < j else 0 <= j) && j <= k && j < |s| ==> s[j] == '\n'
    decreases k
  {
    if !(k < |s| && s[k] != '\n') && k > 0 {
      GiveBackLast(s, k - 1);
    }
  }

  /** `\s*(.+)` at the front of `s`: the description group, None if `.+` finds nothing to take. */
  function MatchDescription(s: string): (r: Option<string>)
    ensures r.Some? ==> r.value != [] && '\n' !in r.value
  {
    match GiveBack(s, SpaceRun(s))
    case None => None
    case Some(k) =>
      var n := LineRun(s[k..]);
      assert n > 0 by { assert s[k..][0] == s[k]; }
      Some(s[k..][..n])
  }

  /** `\s*(\d+)m,\s*(.+)` at the front of `s`: the duration digits and the description. */
  function MatchTail(s: string): (r: Option<(string, string)>)
    ensures r.Some? ==> r.value.0 != [] && AllDigits(r.value.0) && r.value.1 != [] && '\n' !in r.value.1
  {
    var t := s[SpaceRun(s)..];
    var c := DigitRun(t);
    if c == 0 || c + 1 >= |t| || t[c] != 'm' || t[c + 1] != ',' then None
    else match MatchDescription(t[c + 2..])
      case None => None
      case Some(description) => Some((t[..c], description))
  }

  /** `re.match(r'(\d+:\d+),\s*(\d+)m,\s*(.+)', line)`; None where there is no match. */
  function MatchScheduleLine(line: string): (r: Option<LineMatch>)
    ensures r.Some? ==> WellFormed(r.value)
  {
    var a := DigitRun(line);
    if a == 0 || a == |line| || line[a] != ':' then None
    else
      var s := line[a + 1..];
      var b := DigitRun(s);
      if b == 0 || b == |s| || s[b] != ',' then None
      else match MatchTail(s[b + 1..])
        case None => None
        case Some(tail) => Some(LineMatch(line[..a], s[..b], tail.0, tail.1))
  }

  /** The text the pattern consumes, given the whitespace each `\s*` took. */
  function Consumed(m: LineMatch, gap1: string, gap2: string): string {
    m.hourDigits + ":" + m.minuteDigits + "," + gap1 + m.durationDigits + "m," + gap2 + m.description
  }

  /** `line` is the consumed text followed by what `.+` left: nothing, or a line feed and beyond. */
  predicate MatchedBy(line: string, m: LineMatch, gap1: string, gap2: string, rest: string) {
    && Spaces(gap1) && Spaces(gap2)
    && line == Consumed(m, gap1, gap2) + rest
    && (rest == [] || rest[0] == '\n')
  }

  // Sequence bookkeeping for the decomposition lemmas below: prefixes of a
  // whitespace run, and ways of cutting and regrouping a line around its
  // literal separators. Each is one step the solver takes more cheaply as a
  // named fact than inside a larger proof.

  lemma SpacesPrefix(s: string, k: nat)
    requires Spaces(s) && k <= |s|
    ensures Spaces(s[..k])
  {
  }

  lemma Cut3(s: string, k: nat, n: nat)
    requires k <= |s| && n <= |s| - k
    ensures s == s[..k] + s[k..][..n] + s[k..][n..]
  {
    assert s[k..] == s[k..][..n] + s[k..][n..];
  }

  lemma DescriptionShape(s: string) returns (gap: string, rest: string)
    requires MatchDescription(s).Some?
    ensures Spaces(gap) && s == gap + MatchDescription(s).value + rest && (rest == [] || rest[0] == '\n')
  {
    var w := SpaceRun(s);
    var k := GiveBack(s, w).value;
    var n := LineRun(s[k..]);
    assert MatchDescription(s) == Some(s[k..][..n]);
    gap, rest := s[..k], s[k..][n..];
    SpacesPrefix(s[..w], k);
    assert gap == s[..w][..k];
    Cut3(s, k, n);
  }

  lemma TailJoin(s: string, w: nat, c: nat, g: string, z: string, r: string)
    requires w <= |s| && c + 2 <= |s[w..]| && s[w..][c] == 'm' && s[w..][c + 1] == ','
    requires s[w..][c + 2..] == g + z + r
    ensures s == s[..w] + s[w..][..c] + "m," + g + z + r
  {
    var t := s[w..];
    assert t == t[..c] + "m," + t[c + 2..];
    assert s == s[..w] + t;
  }

  lemma TailShape(s: string) returns (gap1: string, gap2: string, rest: string)
    requires MatchTail(s).Some?
    ensures Spaces(gap1) && Spaces(gap2) && (rest == [] || rest[0] == '\n')
    ensures s == gap1 + MatchTail(s).value.0 + "m," + gap2 + MatchTail(s).value.1 + rest
  {
    var w := SpaceRun(s);
    var t := s[w..];
    var c := DigitRun(t);
    var u := t[c + 2..];
    assert MatchTail(s) == Some((t[..c], MatchDescription(u).value));
    gap1 := s[..w];
    gap2, rest := DescriptionShape(u);
    TailJoin(s, w, c, gap2, MatchDescription(u).value, rest);
  }

  lemma Around(x: string, i: nat, c: char)
    requires i < |x| && x[i] == c
    ensures x == x[..i] + [c] + x[i + 1..]
  {
  }

  lemma ConcatLine(line: string, h: string, s: string, mi: string, t: string,
                   g1: string, d: string, g2: string, z: string, r: string)
    requires line == h + ":" + s && s == mi + "," + t && t == g1 + d + "m," + g2 + z + r
    ensures line == h + ":" + mi + "," + g1 + d + "m," + g2 + z + r
  {
  }

  /** A match is a decomposition of the start of the line as the pattern describes it. */
  lemma MatchShape(line: string)
    ensures MatchScheduleLine(line).Some? ==>
      exists gap1, gap2, rest :: MatchedBy(line, MatchScheduleLine(line).value, gap1, gap2, rest)
  {
    if MatchScheduleLine(line).Some? {
      var gap1, gap2, rest := MatchWitness(line);
    }
  }

  lemma MatchWitness(line: string) returns (gap1: string, gap2: string, rest: string)
    requires MatchScheduleLine(line).Some?
    ensures MatchedBy(line, MatchScheduleLine(line).value, gap1, gap2, rest)
  {
    var a := DigitRun(line);
    assert 0 < a < |line| && line[a] == ':';
    var s := line[a + 1..];
    var b := DigitRun(s);
    assert 0 < b < |s| && s[b] == ',';
    var t := s[b + 1..];
    assert MatchTail(t).Some?;
    LineHead(line, a, b);
    var m := LineMatch(line[..a], s[..b], MatchTail(t).value.0, MatchTail(t).value.1);
    gap1, gap2, rest := TailShape(t);
    Around(line, a, ':');
    Around(s, b, ',');
    ConcatLine(line, line[..a], s, s[..b], t, gap1, m.durationDigits, gap2, m.description, rest);
  }

  lemma DescriptionOf(gap: string, description: string, rest: string)
    requires Spaces(gap) && description != [] && '\n' !in description && !IsSpace(description[0])
    requires rest == [] || rest[0] == '\n'
    ensures MatchDescription(gap + description + rest) == Some(description)
  {
    var s := gap + description + rest;
    assert s == gap + (description + rest);
    SpaceRunOf(gap, description + rest);
    assert s[|gap|] == description[0];
    assert description[0] in description;
    assert GiveBack(s, |gap|) == Some(|gap|);
    assert s[|gap|..] == description + rest;
    LineRunOf(description, rest);
    assert (description + rest)[..|description|] == description;
  }

  lemma TailParts(g: string, d: string, y: string, z: string, r: string)
    ensures (g + d + "m," + y + z + r)[|g|..] == d + "m," + (y + z + r)
    ensures g + d + "m," + y + z + r == g + (d + "m," + (y + z + r))
    ensures (d + "m," + (y + z + r))[..|d|] == d && (d + "m," + (y + z + r))[|d| + 2..] == y + z + r
    ensures (d + "m," + (y + z + r))[|d|] == 'm' && (d + "m," + (y + z + r))[|d| + 1] == ','
  {
  }

  lemma TailOf(gap1: string, duration: string, gap2: string, description: string, rest: string)
    requires Spaces(gap1) && duration != [] && AllDigits(duration)
    requires Spaces(gap2) && description != [] && '\n' !in description && !IsSpace(description[0])
    requires rest == [] || rest[0] == '\n'
    ensures MatchTail(gap1 + duration + "m," + gap2 + description + rest) == Some((duration, description))
  {
    var u := gap2 + description + rest;
    var s := gap1 + duration + "m," + gap2 + description + rest;
    var t := duration + "m," + u;
    TailParts(gap1, duration, gap2, description, rest);
    assert SpaceRun(s) == |gap1| by {
      assert t[0] == duration[0];
      DigitNotSpace(duration[0]);
      SpaceRunOf(gap1, t);
    }
    assert DigitRun(t) == |duration| by {
      assert t == duration + ("m," + u);
      DigitRunOf(duration, "m," + u);
    }
    DescriptionOf(gap2, description, rest);
  }

  /**
    A line laid out as the pattern describes, with any whitespace after the
    commas and a description that does not start with whitespace, matches
    with exactly its own groups.
   */
  lemma MatchLaidOut(m: LineMatch, gap1: string, gap2: string, rest: string)
    requires WellFormed(m) && !IsSpace(m.description[0])
    requires Spaces(gap1) && Spaces(gap2) && (rest == [] || rest[0] == '\n')
    ensures MatchScheduleLine(Consumed(m, gap1, gap2) + rest) == Some(m)
  {
    var line := Consumed(m, gap1, gap2) + rest;
    var h, mi := m.hourDigits, m.minuteDigits;
    var tail := gap1 + m.durationDigits + "m," + gap2 + m.description + rest;
    LineParts(h, mi, gap1, m.durationDigits, gap2, m.description, rest);
    HeadParts(h, mi, tail);
    TailOf(gap1, m.durationDigits, gap2, m.description, rest);
    LineHead(line, |h|, |mi|);
  }

  lemma HeadParts(h: string, mi: string, tail: string)
    requires AllDigits(h) && AllDigits(mi)
    ensures var line := h + ":" + mi + "," + tail;
      && DigitRun(line) == |h| && |h| < |line| && line[|h|] == ':' && line[..|h|] == h
      && line[|h| + 1..] == mi + "," + tail
    ensures var s := mi + "," + tail;
      && DigitRun(s) == |mi| && |mi| < |s| && s[|mi|] == ',' && s[..|mi|] == mi && s[|mi| + 1..] == tail
  {
    var s := mi + ("," + tail);
    var line := h + ":" + mi + "," + tail;
    assert line == h + (":" + s);
    assert line[..|h|] == h && line[|h| + 1..] == s;
    assert s == mi + "," + tail;
    assert s[..|mi|] == mi && s[|mi| + 1..] == tail;
    DigitRunOf(h, ":" + s);
    DigitRunOf(mi, "," + tail);
  }

  /** Past a start time and its comma, the line matches as its tail does. */
  lemma LineHead(line: string, a: nat, b: nat)
    requires 0 < a < |line| && DigitRun(line) == a && line[a] == ':'
    requires 0 < b < |line[a + 1..]| && DigitRun(line[a + 1..]) == b && line[a + 1..][b] == ','
    ensures MatchTail(line[a + 1..][b + 1..]).Some? ==>
      MatchScheduleLine(line) == Some(LineMatch(line[..a], line[a + 1..][..b],
        MatchTail(line[a + 1..][b + 1..]).value.0, MatchTail(line[a + 1..][b + 1..]).value.1))
  {
  }

  lemma LineParts(h: string, mi: string, g1: string, d: string, g2: string, z: string, r: string)
    ensures h + ":" + mi + "," + g1 + d + "m," + g2 + z + r == h + ":" + mi + "," + (g1 + d + "m," + g2 + z + r)
  {
  }

  /**
    The rewritten line: start and end as zero-padded "HH:MM", the duration
    digits as they were matched, and the description.
   */
  function ReformatLine(m: LineMatch): string
    requires WellFormed(m)
  {
    var start := ClockTime(DecimalValue(m.hourDigits), DecimalValue(m.minuteDigits));
    var end := ReformatEnd(DecimalValue(m.hourDigits), DecimalValue(m.minuteDigits), DecimalValue(m.durationDigits));
    FormatClock(start) + "-" + FormatClock(end) + ", " + m.durationDigits + "m, " + m.description
  }

  /** The start-time group read with `split(':')` and `int()`, and the duration group with `int()`. */
  lemma GroupsRead(m: LineMatch)
    requires WellFormed(m)
    ensures ParseClock(m.hourDigits + ":" + m.minuteDigits)
      == Some(ClockTime(DecimalValue(m.hourDigits), DecimalValue(m.minuteDigits)))
    ensures ParseInt(m.durationDigits) == Some(DecimalValue(m.durationDigits))
  {
    ParseDigits(m.hourDigits);
    ParseDigits(m.minuteDigits);
    ParseDigits(m.durationDigits);
    assert ':' !in m.hourDigits by { assert AllDigits(m.hourDigits); }
    assert ':' !in m.minuteDigits by { assert AllDigits(m.minuteDigits); }
    CharAfter(m.hourDigits, ':', m.minuteDigits);
    SplitAt(m.hourDigits, ":", m.minuteDigits);
    CharWhole(m.minuteDigits, ':');
    SplitWhole(m.minuteDigits, ":");
  }

  /** The rewritten lines of the matching lines, in order. */
  function Reformatted(lines: seq<string>): (r: seq<string>)
    ensures |r| <= |lines|
    ensures r == [] <==> NoLineMatches(lines)
  {
    if lines == [] then []
    else
      var rest := Reformatted(lines[1..]);
      match MatchScheduleLine(lines[0])
      case None => rest
      case Some(m) => [ReformatLine(m)] + rest
  }

  /** One reply line gives its rewrite when it matches and nothing otherwise. */
  lemma ReformattedLine(line: string)
    ensures Reformatted([line]) == match MatchScheduleLine(line)
      case None => []
      case Some(m) => [ReformatLine(m)]
  {
    assert [line][1..] == [];
  }

  /** The rewrites of a line followed by more lines: that line's rewrite, then theirs. */
  lemma ReformattedCons(line: string, rest: seq<string>)
    ensures Reformatted([line] + rest) == Reformatted([line]) + Reformatted(rest)
  {
    assert ([line] + rest)[0] == line && ([line] + rest)[1..] == rest;
    assert [line][1..] == [];
  }

  /** The rewrites of two runs of reply lines are the rewrites of each, in reply order. */
  lemma {:induction false} ReformattedAppend(a: seq<string>, b: seq<string>)
    ensures Reformatted(a + b) == Reformatted(a) + Reformatted(b)
    decreases |a|
  {
    if a == [] {
      assert a + b == b;
    } else {
      var x, t := a[0], a[1..];
      assert a == [x] + t;
      ReformattedAppend(t, b);
      AppendStep(x, t, b);
      ReformattedCons(x, t);
      ConcatAssoc(Reformatted([x]), Reformatted(t), Reformatted(b));
    }
  }

  /** Regrouping a concatenation of three runs of lines. */
  lemma ConcatAssoc(a: seq<string>, b: seq<string>, c: seq<string>)
    ensures a + b + c == a + (b + c)
  {
  }

  /** The step of ReformattedAppend: a run that starts with the line `x`, followed by `b`. */
  lemma AppendStep(x: string, t: seq<string>, b: seq<string>)
    ensures Reformatted([x] + t + b) == Reformatted([x]) + Reformatted(t + b)
  {
    ConcatAssoc([x], t, b);
    ReformattedCons(x, t + b);
  }

  datatype ReplyError = NoScheduleLines

  /** `reply.split('\n')`. */
  function ReplyLines(reply: string): seq<string> {
    Split(reply, "\n")
  }

  /** No line of `lines` matches the schedule-line pattern. */
  predicate NoLineMatches(lines: seq<string>) {
    lines == [] || (MatchScheduleLine(lines[0]).None? && NoLineMatches(lines[1..]))
  }

  /** The schedule lines of a reply; the error the source raises when none of its lines matches. */
  function ScheduleLinesOf(reply: string): (r: Result<seq<string>, ReplyError>)
    ensures r.Success? ==> r.value != []
    ensures r.Failure? <==> NoLineMatches(ReplyLines(reply))
  {
    var lines := Reformatted(ReplyLines(reply));
    if lines == [] then Failure(NoScheduleLines) else Success(lines)
  }

  /** Why a line fails the format check. */
  datatype Defect = FieldCount | TimeFormat | DurationFormat

  datatype FormatError = FormatError(index: nat, defect: Defect)

  /** `re.match(r'\d{2}:\d{2}', time)`: the field starts with two digits, a colon and two digits. */
  predicate TimeOk(time: string) {
    |time| >= 5 && IsDigit(time[0]) && IsDigit(time[1]) && time[2] == ':' && IsDigit(time[3]) && IsDigit(time[4])
  }

  /** `re.match(r'\d+m', duration)`: the field starts with digits followed by `m`. */
  predicate DurationOk(duration: string) {
    var n := DigitRun(duration);
    0 < n < |duration| && duration[n] == 'm'
  }

  /** The first check a line fails, in the order the source makes them; None if it passes. */
  function LineDefect(line: string): Option<Defect> {
    var values := Split(line, ", ");
    if |values| != 3 then Some(FieldCount)
    else if !TimeOk(values[0]) then Some(TimeFormat)
    else if !DurationOk(values[1]) then Some(DurationFormat)
    else None
  }

  /** The format check over a whole schedule: it stops at the first line that fails. */
  method ValidateFormat(schedule: seq<string>) returns (r: Outcome<FormatError>)
    ensures r.Pass? <==> forall i :: 0 <= i < |schedule| ==> LineDefect(schedule[i]).None?
    ensures r.Fail? ==> r.error.index < |schedule| && LineDefect(schedule[r.error.index]) == Some(r.error.defect)
    ensures r.Fail? ==> forall j :: 0 <= j < r.error.index ==> LineDefect(schedule[j]).None?
  {
    var i := 0;
    while i < |schedule|
      invariant i <= |schedule|
      invariant forall j :: 0 <= j < i ==> LineDefect(schedule[j]).None?
    {
      var d := LineDefect(schedule[i]);
      if d.Some? {
        return Fail(FormatError(i, d.value));
      }
      i := i + 1;
    }
    return Pass;
  }

  /** `", "` splits a rewritten line into its time range, its duration and its description. */
  lemma ReformatLineFields(m: LineMatch)
    requires WellFormed(m) && NoCommaSpace(m.description)
    ensures
      var start := ClockTime(DecimalValue(m.hourDigits), DecimalValue(m.minuteDigits));
      var end := ReformatEnd(DecimalValue(m.hourDigits), DecimalValue(m.minuteDigits), DecimalValue(m.durationDigits));
      Split(ReformatLine(m), ", ") == [FormatClock(start) + "-" + FormatClock(end), m.durationDigits + "m", m.description]
  {
    var start := ClockTime(DecimalValue(m.hourDigits), DecimalValue(m.minuteDigits));
    var end := ReformatEnd(DecimalValue(m.hourDigits), DecimalValue(m.minuteDigits), DecimalValue(m.durationDigits));
    var range := FormatClock(start) + "-" + FormatClock(end);
    var dur := m.durationDigits + "m";
    RangeHasNoCommaSpace(start, end);
    DurationHasNoCommaSpace(m.durationDigits);
    CommaSpaceAfter(range, dur + ", " + m.description);
    assert ReformatLine(m) == range + ", " + (dur + ", " + m.description);
    SplitAt(range, ", ", dur + ", " + m.description);
    CommaSpaceAfter(dur, m.description);
    SplitAt(dur, ", ", m.description);
    NoCommaSpaceWhole(m.description);
    SplitWhole(m.description, ", ");
  }

  /** A padded field of a non-negative number holds only digits. */
  lemma PadDigits(n: int)
    requires 0 <= n
    ensures AllDigits(Pad2(n)) && |Pad2(n)| >= 2
    ensures n < 100 <==> |Pad2(n)| == 2
  {
    Pad2RoundTrip(n);
  }

  lemma RangeHasNoCommaSpace(start: ClockTime, end: ClockTime)
    requires 0 <= start.hour && 0 <= start.minute && 0 <= end.hour && 0 <= end.minute
    ensures NoCommaSpace(FormatClock(start) + "-" + FormatClock(end))
  {
    PadDigits(start.hour);
    PadDigits(start.minute);
    PadDigits(end.hour);
    PadDigits(end.minute);
    var s := FormatClock(start) + "-" + FormatClock(end);
    assert forall i :: 0 <= i < |s| ==> s[i] != ',' by {
      forall i | 0 <= i < |s| ensures s[i] != ',' {
        assert IsDigit(s[i]) || s[i] == ':' || s[i] == '-';
      }
    }
  }

  lemma DurationHasNoCommaSpace(digits: string)
    requires AllDigits(digits)
    ensures NoCommaSpace(digits + "m")
  {
    var s := digits + "m";
    assert forall i :: 0 <= i < |s| ==> s[i] != ',' by {
      forall i | 0 <= i < |s| ensures s[i] != ',' {
        assert i < |digits| ==> IsDigit(s[i]);
      }
    }
  }

  /**
    A rewritten line passes the format check exactly when its start hour has
    at most two digits and its description holds no `", "`.
   */
  lemma ReformattedLinePasses(m: LineMatch)
    requires WellFormed(m)
    ensures LineDefect(ReformatLine(m)).None? <==> DecimalValue(m.hourDigits) < 100 && NoCommaSpace(m.description)
  {
    if NoCommaSpace(m.description) {
      ReformatLineFields(m);
      RangeTimeOk(m);
      DurationFieldOk(m.durationDigits);
    } else {
      CommaSpaceSplits(ReformatLine(m), m);
    }
  }

  /** The time range of a rewritten line passes `\d{2}:\d{2}` exactly when the start hour is below 100. */
  lemma RangeTimeOk(m: LineMatch)
    requires WellFormed(m)
    ensures
      var h := DecimalValue(m.hourDigits);
      var start := ClockTime(h, DecimalValue(m.minuteDigits));
      var end := ReformatEnd(h, DecimalValue(m.minuteDigits), DecimalValue(m.durationDigits));
      TimeOk(FormatClock(start) + "-" + FormatClock(end)) <==> h < 100
  {
    var h := DecimalValue(m.hourDigits);
    var start := ClockTime(h, DecimalValue(m.minuteDigits));
    var end := ReformatEnd(h, DecimalValue(m.minuteDigits), DecimalValue(m.durationDigits));
    var range := FormatClock(start) + "-" + FormatClock(end);
    PadDigits(h);
    PadDigits(start.minute);
    assert range[..|Pad2(h)|] == Pad2(h);
    if h < 100 {
      assert range[2] == ':';
      assert range[3..5] == Pad2(start.minute)[..2];
    } else {
      assert IsDigit(range[2]);
    }
  }

  lemma DurationFieldOk(digits: string)
    requires digits != [] && AllDigits(digits)
    ensures DurationOk(digits + "m")
  {
    DigitRunOf(digits, "m");
  }

  /** A `", "` inside the description makes a fourth field. */
  lemma CommaSpaceSplits(line: string, m: LineMatch)
    requires WellFormed(m) && !NoCommaSpace(m.description) && line == ReformatLine(m)
    ensures |Split(line, ", ")| != 3
  {
    var start := ClockTime(DecimalValue(m.hourDigits), DecimalValue(m.minuteDigits));
    var end := ReformatEnd(DecimalValue(m.hourDigits), DecimalValue(m.minuteDigits), DecimalValue(m.durationDigits));
    var range := FormatClock(start) + "-" + FormatClock(end);
    var dur := m.durationDigits + "m";
    RangeHasNoCommaSpace(start, end);
    DurationHasNoCommaSpace(m.durationDigits);
    assert line == range + ", " + (dur + ", " + m.description);
    SplitTwo(range, dur, m.description);
    CommaSpaceOccurs(m.description);
  }

  /** A reply line the rewriting turns into a line that passes: it does not match, or it has a short hour and no `", "`. */
  predicate Fits(line: string) {
    match MatchScheduleLine(line)
    case None => true
    case Some(m) => DecimalValue(m.hourDigits) < 100 && NoCommaSpace(m.description)
  }

  predicate AllFit(lines: seq<string>) {
    lines == [] || (Fits(lines[0]) && AllFit(lines[1..]))
  }

  predicate AllPass(schedule: seq<string>) {
    schedule == [] || (LineDefect(schedule[0]).None? && AllPass(schedule[1..]))
  }

  /**
    The schedule the newer assistant builds from a reply and then checks:
    every rewritten line passes the format check exactly when every matching
    reply line has a start hour below 100 and no `", "` in its description.
   */
  lemma {:induction false} ReformattedAllPass(lines: seq<string>)
    ensures AllPass(Reformatted(lines)) <==> AllFit(lines)
  {
    if lines != [] {
      var rest := Reformatted(lines[1..]);
      ReformattedAllPass(lines[1..]);
      match MatchScheduleLine(lines[0])
      case None =>
      case Some(m) =>
        ReformattedLinePasses(m);
        assert ([ReformatLine(m)] + rest)[0] == ReformatLine(m);
        assert ([ReformatLine(m)] + rest)[1..] == rest;
    }
  }

  /** AllPass is the condition under which ValidateFormat passes. */
  lemma {:induction false} AllPassEverywhere(schedule: seq<string>)
    ensures AllPass(schedule) <==> forall i :: 0 <= i < |schedule| ==> LineDefect(schedule[i]).None?
  {
    if schedule != [] {
      AllPassEverywhere(schedule[1..]);
      assert forall i :: 1 <= i < |schedule| ==> schedule[i] == schedule[1..][i - 1];
    }
  }
}

=== FILE: scheduler.dfy ===
/**
  The scheduler: sorts the day's events by start, walks them left to right,
  fills the free interval before each event with the allocator, places the
  event, moves the cursor to the event's end, and finally fills the interval
  between the last event and the end of the day.
 */
module Scheduler {
  import opened Wrappers
  import opened Timeline
  import opened Allocator

  /** Raised when a non-empty interval receives no item at all. */
  datatype ScheduleError = EmptyGap(gapStart: int, gapEnd: int)

  /** The timeline and the tasks left in the pool after the last interval. */
  datatype Schedule = Schedule(items: seq<Item>, pool: seq<Task>)

  predicate SortedByStart(events: seq<Event>) {
    forall i, j :: 0 <= i < j < |events| ==> events[i].start <= events[j].start
  }

  /** Inserts `e` before the first event that starts no earlier than it does. */
  function InsertEvent(e: Event, sorted: seq<Event>): (r: seq<Event>)
    requires SortedByStart(sorted)
    ensures SortedByStart(r)
    ensures multiset(r) == multiset(sorted) + multiset{e}
    ensures r[0] == e || (sorted != [] && r[0] == sorted[0])
  {
    if sorted == [] || e.start <= sorted[0].start then
      ConsSorted(e, sorted);
      [e] + sorted
    else
      TailSorted(sorted);
      var rest := InsertEvent(e, sorted[1..]);
      assert sorted == [sorted[0]] + sorted[1..];
      ConsSorted(sorted[0], rest);
      [sorted[0]] + rest
  }

  lemma TailSorted(s: seq<Event>)
    requires SortedByStart(s) && s != []
    ensures SortedByStart(s[1..])
    ensures |s| > 1 ==> s[0].start <= s[1].start
  {
    forall i, j | 0 <= i < j < |s[1..]| ensures s[1..][i].start <= s[1..][j].start {
      assert s[1..][i] == s[i + 1] && s[1..][j] == s[j + 1];
    }
  }

  lemma ConsSorted(x: Event, s: seq<Event>)
    requires SortedByStart(s)
    requires s != [] ==> x.start <= s[0].start
    ensures SortedByStart([x] + s)
  {
    var r := [x] + s;
    forall i, j | 0 <= i < j < |r| ensures r[i].start <= r[j].start {
      if i == 0 {
        assert r[j] == s[j - 1];
        assert s[0].start <= s[j - 1].start;
      } else {
        assert r[i] == s[i - 1] && r[j] == s[j - 1];
      }
    }
  }

  /** A stable insertion sort of the events on their start. */
  function SortEvents(events: seq<Event>): (r: seq<Event>)
    ensures SortedByStart(r)
    ensures multiset(r) == multiset(events)
  {
    if events == [] then []
    else
      assert events == [events[0]] + events[1..];
      InsertEvent(events[0], SortEvents(events[1..]))
  }

  /** The events that start at `start`, in their order. */
  function StartingAt(events: seq<Event>, start: int): seq<Event> {
    if events == [] then []
    else (if events[0].start == start then [events[0]] else []) + StartingAt(events[1..], start)
  }

  /** Inserting an event puts it ahead of the events that start when it does. */
  lemma {:induction false} InsertAheadOfTies(e: Event, sorted: seq<Event>, start: int)
    requires SortedByStart(sorted)
    ensures StartingAt(InsertEvent(e, sorted), start)
      == (if e.start == start then [e] else []) + StartingAt(sorted, start)
    decreases |sorted|
  {
    if sorted == [] || e.start <= sorted[0].start {
      assert ([e] + sorted)[1..] == sorted;
    } else {
      TailSorted(sorted);
      var rest := InsertEvent(e, sorted[1..]);
      InsertAheadOfTies(e, sorted[1..], start);
      assert ([sorted[0]] + rest)[1..] == rest;
      var head := if sorted[0].start == start then [sorted[0]] else [];
      var mine := if e.start == start then [e] else [];
      assert head == [] || mine == [];
      assert head + (mine + StartingAt(sorted[1..], start)) == mine + (head + StartingAt(sorted[1..], start));
    }
  }

  /**
    The sort is stable: the events that start at the same time keep the order
    they had in the input.
   */
  lemma {:induction false} SortEventsStable(events: seq<Event>, start: int)
    ensures StartingAt(SortEvents(events), start) == StartingAt(events, start)
  {
    if events != [] {
      SortEventsStable(events[1..], start);
      InsertAheadOfTies(events[0], SortEvents(events[1..]), start);
    }
  }

  /** Python's `(priority, due_date) <=` comparison of two tasks, where it does not raise. */
  predicate KeyLe(a: Task, b: Task) {
    match (a.priority, b.priority)
    case (Some(p), Some(q)) => p < q || (p == q && DueLe(a.dueDate, b.dueDate))
    case (None, None) => DueLe(a.dueDate, b.dueDate)
    case _ => false
  }

  predicate DueLe(a: Option<int>, b: Option<int>) {
    match (a, b)
    case (Some(x), Some(y)) => x <= y
    case (None, None) => true
    case _ => false
  }

  /** The pool is already in the order the source's sort would leave unchanged. */
  predicate PoolOrdered(pool: seq<Task>) {
    forall i :: 0 <= i < |pool| - 1 ==> KeyLe(pool[i], pool[i + 1])
  }

  /** Allocates the interval [from, to) when it is not empty; an empty allocation into it raises. */
  function FillGap(pool: seq<Task>, from: int, to: int, oracle: Oracle): Result<Allocation, ScheduleError> {
    if from < to then
      var a := Allocate(pool, to - from, from, oracle);
      if a.placed == [] then Failure(EmptyGap(from, to)) else Success(a)
    else Success(Allocation([], pool))
  }

  /**
    An interval raises exactly when it is not empty and no task of the pool can
    be sized; an empty interval changes nothing.
   */
  lemma FillGapRaises(pool: seq<Task>, from: int, to: int, oracle: Oracle)
    ensures var g := FillGap(pool, from, to, oracle);
      && (g.Failure? <==> from < to && AllUnknown(pool, oracle))
      && (g.Failure? ==> g.error == EmptyGap(from, to))
      && (to <= from ==> g == Success(Allocation([], pool)))
  {
    if from < to {
      AllocateEmpty(pool, to - from, from, oracle);
    }
  }

  /** A filled interval holds task items end to end from its start, and no more work than it has room for. */
  lemma FillGapLaysOut(pool: seq<Task>, from: int, to: int, oracle: Oracle)
    requires FillGap(pool, from, to, oracle).Success?
    ensures var placed := FillGap(pool, from, to, oracle).value.placed;
      && BackToBack(placed, from) && AllTasks(placed)
      && (placed != [] ==> TotalDuration(placed) <= to - from)
  {
    if from < to {
      AllocateLaysOut(pool, to - from, from, oracle);
      AllocateConserves(pool, to - from, from, oracle);
      assert Conserves(pool, to - from, Allocate(pool, to - from, from, oracle), oracle);
    }
  }

  /** Filling an interval keeps the pool's work and its unsizable tasks. */
  lemma FillGapConserves(pool: seq<Task>, from: int, to: int, oracle: Oracle)
    requires FillGap(pool, from, to, oracle).Success?
    ensures var a := FillGap(pool, from, to, oracle).value;
      && Work(pool, oracle) == TotalDuration(a.placed) + Work(a.pool, oracle)
      && Unknown(a.pool, oracle) == Unknown(pool, oracle)
  {
    if from < to {
      AllocateConserves(pool, to - from, from, oracle);
    }
  }

  /** Some interval on the walk from `current` through `events` to `dayEnd` is not empty. */
  predicate HasOpenGap(events: seq<Event>, current: int, dayEnd: int)
    decreases |events|
  {
    if events == [] then current < dayEnd
    else current < events[0].start || HasOpenGap(events[1..], events[0].end, dayEnd)
  }

  /** The walk over `events` (already in order) from the cursor `current`. */
  function ScheduleFrom(events: seq<Event>, pool: seq<Task>, current: int, dayEnd: int, oracle: Oracle)
    : (r: Result<Schedule, ScheduleError>)
    // each event appears once, unmodified, in the order walked
    ensures r.Success? ==> EventItems(r.value.items) == AsItems(events)
    // every minute of task work is either on the timeline or still in the pool
    ensures r.Success? ==> Work(pool, oracle) == TaskMinutes(r.value.items) + Work(r.value.pool, oracle)
    ensures r.Success? ==> Unknown(r.value.pool, oracle) == Unknown(pool, oracle)
    ensures r.Failure? ==> r.error.gapStart < r.error.gapEnd
    // with no interval to fill, the timeline is the events alone and the pool is untouched
    ensures !HasOpenGap(events, current, dayEnd) ==> r == Success(Schedule(AsItems(events), pool))
    decreases |events|
  {
    if events == [] then
      FillGapRaises(pool, current, dayEnd, oracle);
      var a :- FillGap(pool, current, dayEnd, oracle);
      FillGapLaysOut(pool, current, dayEnd, oracle);
      FillGapConserves(pool, current, dayEnd, oracle);
      AllTasksCounts(a.placed);
      Success(Schedule(a.placed, a.pool))
    else
      var e := events[0];
      FillGapRaises(pool, current, e.start, oracle);
      var a :- FillGap(pool, current, e.start, oracle);
      FillGapLaysOut(pool, current, e.start, oracle);
      FillGapConserves(pool, current, e.start, oracle);
      var rest :- ScheduleFrom(events[1..], a.pool, e.end, dayEnd, oracle);
      SegmentCounts(a.placed, e, rest.items);
      assert !HasOpenGap(events, current, dayEnd) ==> a == Allocation([], pool);
      Success(Schedule(a.placed + [AsItem(e)] + rest.items, rest.pool))
  }

  /** Event entries and task minutes of the interval before an event, the event, and the rest. */
  lemma SegmentCounts(placed: seq<Item>, e: Event, rest: seq<Item>)
    requires AllTasks(placed)
    ensures EventItems(placed + [AsItem(e)] + rest) == [AsItem(e)] + EventItems(rest)
    ensures TaskMinutes(placed + [AsItem(e)] + rest) == TotalDuration(placed) + TaskMinutes(rest)
    ensures placed == [] ==> placed + [AsItem(e)] + rest == [AsItem(e)] + rest
  {
    AllTasksCounts(placed);
    EventItemsAppend(placed + [AsItem(e)], rest);
    EventItemsAppend(placed, [AsItem(e)]);
    TaskMinutesAppend(placed + [AsItem(e)], rest);
    TaskMinutesAppend(placed, [AsItem(e)]);
    assert [AsItem(e)][1..] == [];
  }

  /**
    The schedule of a day: the events sorted by start, each interval before an
    event and the one closing the day filled from the pool.
   */
  function GenerateSchedule(events: seq<Event>, tasks: seq<Task>, dayStart: int, dayEnd: int, oracle: Oracle)
    : (r: Result<Schedule, ScheduleError>)
    requires PoolOrdered(tasks)
    // the event entries are the input events, each exactly once, in ascending start order
    ensures r.Success? ==>
      var sorted := SortEvents(events);
      && SortedByStart(sorted) && multiset(sorted) == multiset(events)
      && EventItems(r.value.items) == AsItems(sorted)
    ensures r.Success? ==> Work(tasks, oracle) == TaskMinutes(r.value.items) + Work(r.value.pool, oracle)
    ensures r.Success? ==> Unknown(r.value.pool, oracle) == Unknown(tasks, oracle)
  {
    ScheduleFrom(SortEvents(events), tasks, dayStart, dayEnd, oracle)
  }

  /** Each event ends no later than the next one starts. */
  predicate Disjointed(events: seq<Event>) {
    forall i :: 0 <= i < |events| - 1 ==> events[i].end <= events[i + 1].start
  }

  predicate Apart(a: Event, b: Event) {
    a.end <= b.start || b.end <= a.start
  }

  /** No two of the events overlap, whatever their order. */
  predicate PairwiseApart(events: seq<Event>) {
    forall i, j :: 0 <= i < j < |events| ==> Apart(events[i], events[j])
  }

  /** Every event starts before it ends. */
  predicate Proper(events: seq<Event>) {
    forall i :: 0 <= i < |events| ==> events[i].start < events[i].end
  }

  lemma ChainedJoin(a: seq<Item>, b: seq<Item>)
    requires Chained(a) && Chained(b)
    requires a != [] && b != [] ==> a[|a| - 1].end <= b[0].start
    ensures Chained(a + b)
  {
    forall i | 0 <= i < |a + b| - 1 ensures (a + b)[i].end <= (a + b)[i + 1].start {
      if i >= |a| {
        assert (a + b)[i] == b[i - |a|] && (a + b)[i + 1] == b[i - |a| + 1];
      }
    }
  }

  /**
    When the events, in the order walked, do not overlap, no item of the
    timeline ends after the next one begins; the timeline starts no earlier
    than the cursor when the first event does not.
   */
  lemma {:induction false} ScheduleFromChained(events: seq<Event>, pool: seq<Task>, current: int, dayEnd: int, oracle: Oracle)
    requires Disjointed(events)
    requires ScheduleFrom(events, pool, current, dayEnd, oracle).Success?
    ensures var items := ScheduleFrom(events, pool, current, dayEnd, oracle).value.items;
      && Chained(items)
      && (items != [] && (events == [] || current <= events[0].start) ==> current <= items[0].start)
  {
    var items := ScheduleFrom(events, pool, current, dayEnd, oracle).value.items;
    if events == [] {
      FillGapLaysOut(pool, current, dayEnd, oracle);
      var a := FillGap(pool, current, dayEnd, oracle).value;
      BackToBackEnds(a.placed, current);
    } else {
      var e := events[0];
      FillGapLaysOut(pool, current, e.start, oracle);
      var a := FillGap(pool, current, e.start, oracle).value;
      var rest := ScheduleFrom(events[1..], a.pool, e.end, dayEnd, oracle).value;
      assert items == a.placed + [AsItem(e)] + rest.items;
      DisjointedTail(events);
      ScheduleFromChained(events[1..], a.pool, e.end, dayEnd, oracle);
      BackToBackEnds(a.placed, current);
      ChainedJoin(a.placed, [AsItem(e)]);
      ChainedJoin(a.placed + [AsItem(e)], rest.items);
    }
  }

  lemma DisjointedTail(events: seq<Event>)
    requires Disjointed(events) && events != []
    ensures Disjointed(events[1..])
    ensures |events| > 1 ==> events[0].end <= events[1..][0].start
  {
    forall i | 0 <= i < |events[1..]| - 1 ensures events[1..][i].end <= events[1..][i + 1].start {
      assert events[1..][i] == events[i + 1] && events[1..][i + 1] == events[i + 2];
    }
  }

  lemma TailApart(s: seq<Event>)
    requires PairwiseApart(s) && s != []
    ensures PairwiseApart(s[1..])
    ensures forall x :: x in s[1..] ==> Apart(s[0], x)
  {
    var tail := s[1..];
    forall i, j | 0 <= i < j < |tail| ensures Apart(tail[i], tail[j]) {
      assert tail[i] == s[i + 1] && tail[j] == s[j + 1];
    }
    forall x | x in tail ensures Apart(s[0], x) {
      var k :| 0 <= k < |tail| && tail[k] == x;
      assert s[k + 1] == x;
    }
  }

  /** An event apart from all the others, put in front of them, keeps them pairwise apart. */
  lemma ConsApart(e: Event, s: seq<Event>)
    requires PairwiseApart(s)
    requires forall x :: x in s ==> Apart(e, x)
    ensures PairwiseApart([e] + s)
  {
    var r := [e] + s;
    forall i, j | 0 <= i < j < |r| ensures Apart(r[i], r[j]) {
      if i == 0 {
        assert r[j] == s[j - 1];
        assert s[j - 1] in s;
      } else {
        assert r[i] == s[i - 1] && r[j] == s[j - 1];
      }
    }
  }

  /** Inserting an event apart from all the others keeps a sorted sequence pairwise apart. */
  lemma {:induction false} InsertApart(e: Event, sorted: seq<Event>)
    requires SortedByStart(sorted) && PairwiseApart(sorted)
    requires forall x :: x in sorted ==> Apart(e, x)
    ensures PairwiseApart(InsertEvent(e, sorted))
  {
    if sorted == [] || e.start <= sorted[0].start {
      ConsApart(e, sorted);
    } else {
      var tail := sorted[1..];
      TailApart(sorted);
      assert SortedByStart(tail);
      InsertApart(e, tail);
      var rest := InsertEvent(e, tail);
      forall x | x in rest ensures Apart(sorted[0], x) {
        assert x in multiset(rest);
        assert x == e || x in tail;
        if x == e {
          assert sorted[0] in sorted;
          assert Apart(e, sorted[0]);
        }
      }
      ConsApart(sorted[0], rest);
    }
  }

  lemma {:induction false} SortApart(events: seq<Event>)
    requires PairwiseApart(events)
    ensures PairwiseApart(SortEvents(events))
  {
    if events != [] {
      var tail := events[1..];
      assert PairwiseApart(tail) by {
        forall i, j | 0 <= i < j < |tail| ensures Apart(tail[i], tail[j]) {
          assert tail[i] == events[i + 1] && tail[j] == events[j + 1];
        }
      }
      SortApart(tail);
      var sorted := SortEvents(tail);
      forall x | x in sorted ensures Apart(events[0], x) {
        assert x in multiset(sorted);
        assert x in tail;
        var k :| 0 <= k < |tail| && tail[k] == x;
        assert events[k + 1] == x;
      }
      InsertApart(events[0], sorted);
    }
  }

  /** Sorting proper, pairwise apart events leaves each ending before the next starts. */
  lemma SortedApartDisjointed(events: seq<Event>)
    requires Proper(events) && PairwiseApart(events)
    ensures Disjointed(SortEvents(events))
  {
    var sorted := SortEvents(events);
    SortApart(events);
    forall i | 0 <= i < |sorted| - 1 ensures sorted[i].end <= sorted[i + 1].start {
      var y := sorted[i + 1];
      assert y in multiset(events);
      var k :| 0 <= k < |events| && events[k] == y;
      assert Apart(sorted[i], sorted[i + 1]);
      assert sorted[i].start <= y.start < y.end;
    }
  }

  /**
    For proper events that do not overlap, a generated timeline has no two
    adjacent items in conflict: each item ends no later than the next begins.
   */
  lemma GenerateScheduleChained(events: seq<Event>, tasks: seq<Task>, dayStart: int, dayEnd: int, oracle: Oracle)
    requires PoolOrdered(tasks)
    requires Proper(events) && PairwiseApart(events)
    ensures var g := GenerateSchedule(events, tasks, dayStart, dayEnd, oracle);
      g.Success? ==> Chained(g.value.items)
  {
    if GenerateSchedule(events, tasks, dayStart, dayEnd, oracle).Success? {
      SortedApartDisjointed(events);
      ScheduleFromChained(SortEvents(events), tasks, dayStart, dayEnd, oracle);
    }
  }

  /**
    With no task whose duration can be resolved, the walk raises exactly when
    some interval on it is not empty.
   */
  lemma {:induction false} NoKnownWorkFails(events: seq<Event>, pool: seq<Task>, current: int, dayEnd: int, oracle: Oracle)
    requires AllUnknown(pool, oracle)
    ensures ScheduleFrom(events, pool, current, dayEnd, oracle).Failure? <==> HasOpenGap(events, current, dayEnd)
    decreases |events|
  {
    if events == [] {
      FillGapRaises(pool, current, dayEnd, oracle);
    } else {
      FillGapRaises(pool, current, events[0].start, oracle);
      NoKnownWorkFails(events[1..], pool, events[0].end, dayEnd, oracle);
    }
  }

  /**
    A 90-minute report around a 09:00-09:30 stand-up in an 08:30-10:00 day: the
    report is split at 09:00, its second part is split again at 10:00, and the
    last 30 minutes stay in the pool as the second part of the second part.
   */
  lemma ReportAroundStandup()
    ensures
      var standup := Event(540, 570, "Standup", None);
      var report := Task("Write report", Some(90), None, Some(1));
      GenerateSchedule([standup], [report], 510, 600, NoAnswer) == Success(Schedule(
        [ Item(510, 540, 30, "Write report" + " (part 1)", TaskItem(None, Some(1))),
          Item(540, 570, 30, "Standup", EventItem(None)),
          Item(570, 600, 30, "Write report" + " (part 2)" + " (part 1)", TaskItem(None, Some(1))) ],
        [ Task("Write report" + " (part 2)" + " (part 2)", Some(30), None, Some(1)) ]))
  {
    var standup := Event(540, 570, "Standup", None);
    var report := Task("Write report", Some(90), None, Some(1));
    var o: Oracle := NoAnswer;
    assert SortEvents([standup]) == [standup];
    var p2 := PartTwo(report, 90, 30);
    assert [report][1..] == [];
    var first := Allocate([report], 30, 510, o);
    assert first == Allocation([PartOne(report, 510, 30)], [p2] + []);
    assert first.placed != [];
    assert FillGap([report], 510, 540, o) == Success(first);
    assert [p2][1..] == [];
    var closing := Allocate([p2], 30, 570, o);
    assert closing == Allocation([PartOne(p2, 570, 30)], [PartTwo(p2, 60, 30)] + []);
    assert closing.placed != [];
    assert FillGap([p2], 570, 600, o) == Success(closing);
    assert ScheduleFrom([], [p2], 570, 600, o) == Success(Schedule(closing.placed, closing.pool));
    assert ScheduleFrom([standup], [report], 510, 600, o)
        == Success(Schedule(first.placed + [AsItem(standup)] + closing.placed, closing.pool));
    assert first.placed + [AsItem(standup)] + closing.placed
        == [PartOne(report, 510, 30), AsItem(standup), PartOne(p2, 570, 30)];
    assert PartOne(report, 510, 30) == Item(510, 540, 30, "Write report" + " (part 1)", TaskItem(None, Some(1)));
    assert AsItem(standup) == Item(540, 570, 30, "Standup", EventItem(None));
    assert PartOne(p2, 570, 30) == Item(570, 600, 30, "Write report" + " (part 2)" + " (part 1)", TaskItem(None, Some(1)));
    assert PartTwo(p2, 60, 30) == Task("Write report" + " (part 2)" + " (part 2)", Some(30), None, Some(1));
    assert closing.pool == [PartTwo(p2, 60, 30)];
    assert GenerateSchedule([standup], [report], 510, 600, NoAnswer) == ScheduleFrom([standup], [report], 510, 600, o);
    assert [standup][1..] == [];
  }
}

=== FILE: text.dfy ===
/**
  Character classes, decimal numerals and `str.split` with an explicit
  separator, as the schedule-line code uses them.
 */
module Text {
  import opened Wrappers

  predicate IsDigit(c: char) {
    '0' <= c <= '9'
  }

  predicate AllDigits(s: string) {
    forall i :: 0 <= i < |s| ==> IsDigit(s[i])
  }

  /**
    The code points Python's `str.isspace` accepts, which `\s` matches in a
    text pattern: tab to carriage return, the file, group, record and unit
    separators, space, next line, no-break space, and the Unicode spaces and
    separators.
   */
  predicate IsSpace(c: char) {
    var n := c as int;
    || 0x09 <= n <= 0x0d || 0x1c <= n <= 0x20 || n == 0x85 || n == 0xa0 || n == 0x1680
    || 0x2000 <= n <= 0x200a || n == 0x2028 || n == 0x2029 || n == 0x202f || n == 0x205f || n == 0x3000
  }

  /** Digits are not whitespace. */
  lemma DigitNotSpace(c: char)
    requires IsDigit(c)
    ensures !IsSpace(c)
  {
  }


  function DigitValue(c: char): nat
    requires IsDigit(c)
  {
    c as int - '0' as int
  }

  function DigitChar(d: nat): char
    requires d < 10
  {
    ('0' as int + d) as char
  }

  /** The number a string of decimal digits denotes; leading zeros are allowed. */
  function DecimalValue(s: string): nat
    requires AllDigits(s)
  {
    if s == [] then 0 else DecimalValue(s[..|s| - 1]) * 10 + DigitValue(s[|s| - 1])
  }

  /** The shortest decimal numeral of `n`, as `str(n)` writes it. */
  function Decimal(n: nat): string
    decreases n
  {
    if n < 10 then [DigitChar(n)] else Decimal(n / 10) + [DigitChar(n % 10)]
  }

  /** What `int(s)` gives for an optionally signed numeral of ASCII digits; None where it raises. */
  function ParseInt(s: string): Option<int> {
    if s != [] && s[0] == '-' && |s| > 1 && AllDigits(s[1..]) then Some(-(DecimalValue(s[1..]) as int))
    else if s != [] && s[0] == '+' && |s| > 1 && AllDigits(s[1..]) then Some(DecimalValue(s[1..]))
    else if s != [] && AllDigits(s) then Some(DecimalValue(s))
    else None
  }

  /** Reading back a numeral gives the number, and numerals have 1, 2 or 3+ digits as the number grows. */
  lemma {:induction false} DecimalRoundTrip(n: nat)
    ensures AllDigits(Decimal(n))
    ensures DecimalValue(Decimal(n)) == n
    ensures n < 10 ==> |Decimal(n)| == 1
    ensures 10 <= n < 100 ==> |Decimal(n)| == 2
    ensures 100 <= n ==> |Decimal(n)| >= 3
    decreases n
  {
    if n >= 10 {
      DecimalRoundTrip(n / 10);
      var s := Decimal(n);
      assert s[..|s| - 1] == Decimal(n / 10);
    }
  }

  /** A leading zero does not change the value of a numeral. */
  lemma {:induction false} LeadingZero(s: string)
    requires AllDigits(s)
    ensures AllDigits("0" + s)
    ensures DecimalValue("0" + s) == DecimalValue(s)
  {
    var z := "0" + s;
    if s != [] {
      assert z[..|z| - 1] == "0" + s[..|s| - 1];
      assert z[|z| - 1] == s[|s| - 1];
      LeadingZero(s[..|s| - 1]);
    } else {
      assert z[..|z| - 1] == [];
    }
  }

  /** The length of the run of ASCII digits at the front of `s`. */
  function DigitRun(s: string): (n: nat)
    ensures n <= |s|
    ensures AllDigits(s[..n])
    ensures n < |s| ==> !IsDigit(s[n])
  {
    if s == [] || !IsDigit(s[0]) then 0
    else
      var n := 1 + DigitRun(s[1..]);
      assert s[..n] == [s[0]] + s[1..][..n - 1];
      n
  }

  /** The length of the run of whitespace at the front of `s`. */
  function SpaceRun(s: string): (n: nat)
    ensures n <= |s|
    ensures Spaces(s[..n])
    ensures n < |s| ==> !IsSpace(s[n])
  {
    if s == [] || !IsSpace(s[0]) then 0
    else
      var m := SpaceRun(s[1..]);
      SpaceRunStep(s, m);
      1 + m
  }

  /** A space in front of a maximal run of spaces extends the run by one. */
  lemma SpaceRunStep(s: string, m: nat)
    requires s != [] && IsSpace(s[0]) && m <= |s| - 1
    requires Spaces(s[1..][..m])
    requires m < |s| - 1 ==> !IsSpace(s[1..][m])
    ensures Spaces(s[..m + 1])
    ensures m + 1 < |s| ==> !IsSpace(s[m + 1])
  {
    TakeAfterHead(s, m);
    SpacesCons(s[0], s[1..][..m]);
    if m + 1 < |s| {
      assert s[1..][m] == s[m + 1];
    }
  }

  lemma DigitRunOf(a: string, b: string)
    requires AllDigits(a)
    requires b == [] || !IsDigit(b[0])
    ensures DigitRun(a + b) == |a|
    decreases |a|
  {
    if a != [] {
      assert (a + b)[1..] == a[1..] + b;
      DigitRunOf(a[1..], b);
    } else {
      assert a + b == b;
    }
  }

  predicate Spaces(s: string) {
    forall i :: 0 <= i < |s| ==> IsSpace(s[i])
  }

  lemma SpaceRunOf(a: string, b: string)
    requires Spaces(a)
    requires b == [] || !IsSpace(b[0])
    ensures SpaceRun(a + b) == |a|
  {
    var s := a + b;
    var n := SpaceRun(s);
    assert s[..|a|] == a;
    SpacesBefore(s, |a|);
    SpacesBefore(s, n);
    if |a| < |s| {
      assert s[|a|] == b[0];
    }
  }

  lemma TakeAfterHead(s: string, m: nat)
    requires m < |s|
    ensures s[..m + 1] == [s[0]] + s[1..][..m]
  {
  }

  lemma SpacesCons(c: char, t: string)
    requires IsSpace(c) && Spaces(t)
    ensures Spaces([c] + t)
  {
    forall i | 0 <= i < |[c] + t| ensures IsSpace(([c] + t)[i]) {
      if i > 0 {
        assert ([c] + t)[i] == t[i - 1];
      }
    }
  }

  lemma SpacesBefore(s: string, k: nat)
    requires k <= |s| && Spaces(s[..k])
    ensures forall i :: 0 <= i < k ==> IsSpace(s[i])
  {
    forall i | 0 <= i < k ensures IsSpace(s[i]) {
      assert s[..k][i] == s[i];
    }
  }

  /** `int()` of a non-empty run of digits is its value. */
  lemma ParseDigits(s: string)
    requires s != [] && AllDigits(s)
    ensures ParseInt(s) == Some(DecimalValue(s))
  {
    assert IsDigit(s[0]);
  }

  predicate StartsWith(s: string, prefix: string) {
    |prefix| <= |s| && s[..|prefix|] == prefix
  }

  /** `s.split(sep)`: the pieces between the non-overlapping occurrences of `sep`, left to right. */
  function Split(s: string, sep: string): (r: seq<string>)
    requires sep != []
    ensures |r| >= 1
    decreases |s|
  {
    if StartsWith(s, sep) then [""] + Split(s[|sep|..], sep)
    else if s == [] then [""]
    else
      var rest := Split(s[1..], sep);
      [[s[0]] + rest[0]] + rest[1..]
  }

  /** No occurrence of `sep` in `a + rest` begins inside `a`. */
  predicate NoSepIn(a: string, rest: string, sep: string) {
    forall i :: 0 <= i < |a| ==> !StartsWith((a + rest)[i..], sep)
  }

  /** Splitting cuts at the first occurrence of the separator. */
  lemma {:induction false} SplitAt(a: string, sep: string, b: string)
    requires sep != []
    requires NoSepIn(a, sep + b, sep)
    ensures Split(a + sep + b, sep) == [a] + Split(b, sep)
    decreases |a|
  {
    var s := a + sep + b;
    if a == [] {
      assert s == sep + b;
      assert s[..|sep|] == sep;
      assert s[|sep|..] == b;
    } else {
      assert a + (sep + b) == s;
      assert s[0..] == s;
      assert !StartsWith(s, sep);
      assert s[1..] == a[1..] + sep + b;
      assert NoSepIn(a[1..], sep + b, sep) by {
        forall i | 0 <= i < |a[1..]| ensures !StartsWith((a[1..] + (sep + b))[i..], sep) {
          assert (a[1..] + (sep + b))[i..] == (a + (sep + b))[i + 1..];
        }
      }
      SplitAt(a[1..], sep, b);
      assert [a[0]] + a[1..] == a;
    }
  }

  /** A string with no occurrence of the separator splits into itself. */
  lemma {:induction false} SplitWhole(a: string, sep: string)
    requires sep != []
    requires NoSepIn(a, [], sep)
    ensures Split(a, sep) == [a]
    decreases |a|
  {
    if a != [] {
      assert a + [] == a;
      assert a[0..] == a;
      assert NoSepIn(a[1..], [], sep) by {
        forall i | 0 <= i < |a[1..]| ensures !StartsWith((a[1..] + [])[i..], sep) {
          assert (a[1..] + [])[i..] == (a + [])[i + 1..];
        }
      }
      SplitWhole(a[1..], sep);
      assert [a[0]] + a[1..] == a;
    }
  }

  /** A string in which the separator occurs splits into at least two pieces. */
  lemma {:induction false} SplitOccurs(s: string, sep: string, i: nat)
    requires sep != []
    requires i < |s| && StartsWith(s[i..], sep)
    ensures |Split(s, sep)| >= 2
    decreases i
  {
    if !StartsWith(s, sep) {
      assert i > 0 by { assert s[0..] == s; }
      assert s[1..][i - 1..] == s[i..];
      SplitOccurs(s[1..], sep, i - 1);
    }
  }

  /** No `", "` anywhere in `s`. */
  predicate NoCommaSpace(s: string) {
    forall i :: 0 <= i < |s| - 1 ==> !(s[i] == ',' && s[i + 1] == ' ')
  }

  /** A piece without `", "` is cut exactly at the `", "` that follows it. */
  lemma CommaSpaceAfter(a: string, b: string)
    requires NoCommaSpace(a)
    ensures NoSepIn(a, ", " + b, ", ")
  {
    var s := a + (", " + b);
    forall i | 0 <= i < |a| ensures !StartsWith(s[i..], ", ") {
      assert s[i] == a[i];
      if i + 1 < |a| {
        assert s[i + 1] == a[i + 1];
      } else {
        assert s[i + 1] == ',';
      }
      assert s[i..][..2] == [s[i], s[i + 1]];
    }
  }

  lemma NoCommaSpaceWhole(a: string)
    requires NoCommaSpace(a)
    ensures NoSepIn(a, [], ", ")
  {
    assert a + [] == a;
    forall i | 0 <= i < |a| ensures !StartsWith(a[i..], ", ") {
      if i + 1 < |a| {
        assert a[i..][..2] == [a[i], a[i + 1]];
      }
    }
  }

  /** Two fields free of ", " come off the front of a split at ", " unchanged. */
  lemma SplitTwo(x: string, y: string, z: string)
    requires NoCommaSpace(x) && NoCommaSpace(y)
    ensures Split(x + ", " + (y + ", " + z), ", ") == [x, y] + Split(z, ", ")
  {
    CommaSpaceAfter(x, y + ", " + z);
    SplitAt(x, ", ", y + ", " + z);
    CommaSpaceAfter(y, z);
    SplitAt(y, ", ", z);
  }

  /** A text holding ", " splits at it into at least two fields. */
  lemma CommaSpaceOccurs(s: string)
    requires !NoCommaSpace(s)
    ensures |Split(s, ", ")| >= 2
  {
    var i :| 0 <= i < |s| - 1 && s[i] == ',' && s[i + 1] == ' ';
    assert s[i..][..2] == ", ";
    SplitOccurs(s, ", ", i);
  }

  /** A one-character separator absent from `a` is first met right after `a`. */
  lemma CharAfter(a: string, c: char, b: string)
    requires c !in a
    ensures NoSepIn(a, [c] + b, [c])
  {
    forall i | 0 <= i < |a| ensures !StartsWith((a + ([c] + b))[i..], [c]) {
      assert (a + ([c] + b))[i..][..1] == [a[i]];
    }
  }

  lemma CharWhole(a: string, c: char)
    requires c !in a
    ensures NoSepIn(a, [], [c])
  {
    forall i | 0 <= i < |a| ensures !StartsWith((a + [])[i..], [c]) {
      assert (a + [])[i..][..1] == [a[i]];
    }
  }
}

=== FILE: timeline.dfy ===
/**
  The data model of the scheduler: tasks waiting in the pool, fixed calendar
  events, and the items of the finished timeline. Instants are minutes since
  midnight of the scheduled day; due dates are day numbers and only ever compared.
 */
module Timeline {
  import opened Wrappers

  /**
    The duration oracle: the parsed integer answer to a question, or None when
    the answer does not parse as an integer.
   */
  type Oracle = string -> Option<int>

  /** A flexible task from the task list; any optional field may be unset. */
  datatype Task = Task(
    description: string,
    duration: Option<int>,
    dueDate: Option<int>,
    priority: Option<int>)

  /** A fixed calendar event of the day. */
  datatype Event = Event(start: int, end: int, description: string, location: Option<string>)

  /** What a timeline item was made from: an event, or a (possibly split) task. */
  datatype Kind =
    | EventItem(location: Option<string>)
    | TaskItem(dueDate: Option<int>, priority: Option<int>)

  /** One entry of the timeline. */
  datatype Item = Item(start: int, end: int, duration: int, description: string, kind: Kind)

  /** The timeline entry for an event; its duration is the event's length in minutes. */
  function AsItem(e: Event): Item {
    Item(e.start, e.end, e.end - e.start, e.description, EventItem(e.location))
  }

  function AsItems(events: seq<Event>): seq<Item> {
    if events == [] then [] else [AsItem(events[0])] + AsItems(events[1..])
  }

  /** Sum of the durations of the items. */
  function TotalDuration(items: seq<Item>): int {
    if items == [] then 0 else items[0].duration + TotalDuration(items[1..])
  }

  /** The event entries of a timeline, in timeline order. */
  function EventItems(items: seq<Item>): seq<Item> {
    if items == [] then []
    else (if items[0].kind.EventItem? then [items[0]] else []) + EventItems(items[1..])
  }

  /** Minutes of task work on a timeline. */
  function TaskMinutes(items: seq<Item>): int {
    if items == [] then 0
    else (if items[0].kind.TaskItem? then items[0].duration else 0) + TaskMinutes(items[1..])
  }

  predicate AllTasks(items: seq<Item>) {
    forall i :: 0 <= i < |items| ==> items[i].kind.TaskItem?
  }

  /**
    The items are laid end to end from `start`: the first begins at `start`,
    each ends `duration` minutes after it begins, and each next one begins
    where the previous one ended.
   */
  predicate BackToBack(items: seq<Item>, start: int) {
    items == [] ||
    (items[0].start == start && items[0].end == start + items[0].duration
     && BackToBack(items[1..], items[0].end))
  }

  /** No item ends after the next one begins. */
  predicate Chained(items: seq<Item>) {
    forall i :: 0 <= i < |items| - 1 ==> items[i].end <= items[i + 1].start
  }

  lemma {:induction false} TotalDurationAppend(a: seq<Item>, b: seq<Item>)
    ensures TotalDuration(a + b) == TotalDuration(a) + TotalDuration(b)
  {
    if a == [] {
      assert a + b == b;
    } else {
      assert (a + b)[1..] == a[1..] + b;
      TotalDurationAppend(a[1..], b);
    }
  }

  lemma {:induction false} EventItemsAppend(a: seq<Item>, b: seq<Item>)
    ensures EventItems(a + b) == EventItems(a) + EventItems(b)
  {
    if a == [] {
      assert a + b == b;
    } else {
      var head := if a[0].kind.EventItem? then [a[0]] else [];
      assert (a + b)[0] == a[0];
      assert (a + b)[1..] == a[1..] + b;
      EventItemsAppend(a[1..], b);
      assert EventItems(a + b) == head + (EventItems(a[1..]) + EventItems(b));
      assert head + (EventItems(a[1..]) + EventItems(b)) == (head + EventItems(a[1..])) + EventItems(b);
    }
  }

  lemma {:induction false} TaskMinutesAppend(a: seq<Item>, b: seq<Item>)
    ensures TaskMinutes(a + b) == TaskMinutes(a) + TaskMinutes(b)
  {
    if a == [] {
      assert a + b == b;
    } else {
      assert (a + b)[1..] == a[1..] + b;
      TaskMinutesAppend(a[1..], b);
    }
  }

  /** A run of task items has no event entries and all its minutes are task minutes. */
  lemma {:induction false} AllTasksCounts(items: seq<Item>)
    requires AllTasks(items)
    ensures EventItems(items) == []
    ensures TaskMinutes(items) == TotalDuration(items)
  {
    if items != [] {
      assert items[0].kind.TaskItem?;
      assert AllTasks(items[1..]) by {
        forall i | 0 <= i < |items[1..]| ensures items[1..][i].kind.TaskItem? {
          assert items[1..][i] == items[i + 1];
        }
      }
      AllTasksCounts(items[1..]);
    }
  }

  /** Items laid end to end from `start` are chained, and the last ends at `start` plus their total. */
  lemma {:induction false} BackToBackEnds(items: seq<Item>, start: int)
    requires BackToBack(items, start)
    ensures Chained(items)
    ensures items != [] ==> items[|items| - 1].end == start + TotalDuration(items)
  {
    if items != [] {
      BackToBackEnds(items[1..], items[0].end);
      forall i | 0 <= i < |items| - 1 ensures items[i].end <= items[i + 1].start {
        if i > 0 {
          assert items[i] == items[1..][i - 1] && items[i + 1] == items[1..][i];
        }
      }
      if |items| > 1 {
        assert items[|items| - 1] == items[1..][|items[1..]| - 1];
      }
    }
  }
}

=== FILE: validator.dfy ===
/**
  The consistency check run on a finished schedule against the calendar made
  from it. It is read-only: it reports the first inconsistency it meets and
  never repairs anything.
 */
module Validator {
  import opened Wrappers
  import opened Timeline

  /** A calendar event as emitted for one timeline item. */
  datatype CalendarEntry = CalendarEntry(start: int, end: int, summary: string)

  /** The first check that failed, with the position of the item concerned. */
  datatype Inconsistency =
    | CountMismatch
    | StartMismatch(index: nat)
    | EndMismatch(index: nat)
    | SummaryMismatch(index: nat)
    | Overlap(index: nat)
    | BadDuration(index: nat)
    | BadGap(index: nat)

  /** Longest acceptable item, in minutes. */
  const MaxDuration := 1440
  /** Longest acceptable gap between two adjacent items, in minutes. */
  const MaxGap := 240

  /** The calendar made from a schedule: one entry per item, in order. */
  function ToCalendar(schedule: seq<Item>): seq<CalendarEntry> {
    if schedule == [] then []
    else [CalendarEntry(schedule[0].start, schedule[0].end, schedule[0].description)] + ToCalendar(schedule[1..])
  }

  predicate EntryMatches(e: CalendarEntry, item: Item) {
    e.start == item.start && e.end == item.end && e.summary == item.description
  }

  /** The checks on an item and the one after it: no overlap, a sensible duration, a small gap. */
  predicate PairOk(a: Item, b: Item) {
    && a.end <= b.start
    && 0 < a.duration <= MaxDuration
    && 0 <= b.start - a.end <= MaxGap
  }

  predicate CalendarMatches(schedule: seq<Item>, calendar: seq<CalendarEntry>) {
    |calendar| == |schedule| && forall i :: 0 <= i < |schedule| ==> EntryMatches(calendar[i], schedule[i])
  }

  predicate AdjacentOk(schedule: seq<Item>) {
    forall i :: 0 <= i < |schedule| - 1 ==> PairOk(schedule[i], schedule[i + 1])
  }

  /** Everything the validator checks holds. */
  predicate Consistent(schedule: seq<Item>, calendar: seq<CalendarEntry>) {
    CalendarMatches(schedule, calendar) && AdjacentOk(schedule)
  }

  /**
    `err` names the first failing check, in the order the checks are made:
    the count, then start, end and summary of each entry, then overlap,
    duration and gap of each adjacent pair.
   */
  predicate FirstFailure(schedule: seq<Item>, calendar: seq<CalendarEntry>, err: Inconsistency) {
    match err
    case CountMismatch => |calendar| != |schedule|
    case StartMismatch(i) =>
      EntriesMatchBefore(schedule, calendar, i) && calendar[i].start != schedule[i].start
    case EndMismatch(i) =>
      EntriesMatchBefore(schedule, calendar, i) && calendar[i].start == schedule[i].start
      && calendar[i].end != schedule[i].end
    case SummaryMismatch(i) =>
      EntriesMatchBefore(schedule, calendar, i) && calendar[i].start == schedule[i].start
      && calendar[i].end == schedule[i].end && calendar[i].summary != schedule[i].description
    case Overlap(i) =>
      PairsOkBefore(schedule, calendar, i) && schedule[i].end > schedule[i + 1].start
    case BadDuration(i) =>
      PairsOkBefore(schedule, calendar, i) && schedule[i].end <= schedule[i + 1].start
      && !(0 < schedule[i].duration <= MaxDuration)
    case BadGap(i) =>
      PairsOkBefore(schedule, calendar, i) && schedule[i].end <= schedule[i + 1].start
      && 0 < schedule[i].duration <= MaxDuration && !(0 <= schedule[i + 1].start - schedule[i].end <= MaxGap)
  }

  /** The lengths agree, `i` is an entry, and every entry before it matches its item. */
  predicate EntriesMatchBefore(schedule: seq<Item>, calendar: seq<CalendarEntry>, i: nat) {
    |calendar| == |schedule| && i < |schedule|
    && forall j :: 0 <= j < i ==> EntryMatches(calendar[j], schedule[j])
  }

  /** The calendar matches, `i` starts an adjacent pair, and every pair before it passes. */
  predicate PairsOkBefore(schedule: seq<Item>, calendar: seq<CalendarEntry>, i: nat) {
    CalendarMatches(schedule, calendar) && i + 1 < |schedule|
    && forall j :: 0 <= j < i ==> PairOk(schedule[j], schedule[j + 1])
  }

  /** Checks a schedule against its calendar and reports the first inconsistency. */
  method Validate(schedule: seq<Item>, calendar: seq<CalendarEntry>) returns (r: Outcome<Inconsistency>)
    ensures r.Pass? <==> Consistent(schedule, calendar)
    ensures r.Fail? ==> FirstFailure(schedule, calendar, r.error)
  {
    if |calendar| != |schedule| {
      return Fail(CountMismatch);
    }
    var i := 0;
    while i < |schedule|
      invariant 0 <= i <= |schedule|
      invariant forall j :: 0 <= j < i ==> EntryMatches(calendar[j], schedule[j])
    {
      if calendar[i].start != schedule[i].start {
        return Fail(StartMismatch(i));
      }
      if calendar[i].end != schedule[i].end {
        return Fail(EndMismatch(i));
      }
      if calendar[i].summary != schedule[i].description {
        return Fail(SummaryMismatch(i));
      }
      i := i + 1;
    }
    var k := 0;
    while k + 1 < |schedule|
      invariant 0 <= k <= |schedule|
      invariant forall j :: 0 <= j < k && j + 1 < |schedule| ==> PairOk(schedule[j], schedule[j + 1])
    {
      var current, next := schedule[k], schedule[k + 1];
      if current.end > next.start {
        return Fail(Overlap(k));
      }
      if !(0 < current.duration <= MaxDuration) {
        return Fail(BadDuration(k));
      }
      var gap := next.start - current.end;
      if !(0 <= gap <= MaxGap) {
        return Fail(BadGap(k));
      }
      k := k + 1;
    }
    return Pass;
  }

  /** The calendar made from a schedule always matches it, so only the adjacency checks can fail. */
  lemma {:induction false} OwnCalendarMatches(schedule: seq<Item>)
    ensures CalendarMatches(schedule, ToCalendar(schedule))
    ensures Consistent(schedule, ToCalendar(schedule)) <==> AdjacentOk(schedule)
  {
    if schedule != [] {
      OwnCalendarMatches(schedule[1..]);
      var cal := ToCalendar(schedule);
      forall i | 0 <= i < |schedule| ensures EntryMatches(cal[i], schedule[i]) {
        if i > 0 {
          assert cal[i] == ToCalendar(schedule[1..])[i - 1] && schedule[i] == schedule[1..][i - 1];
        }
      }
    }
  }
}

=== FILE: wrappers.dfy ===
/** Failure-carrying datatypes used across the model. */
module Wrappers {

  /** A value that may be missing, such as a Python `None`. */
  datatype Option<+T> = None | Some(value: T)

  /** The result of an operation that may raise: the value, or the error it raises. */
  datatype Result<+R, +E> = Success(value: R) | Failure(error: E) {

    predicate IsFailure() {
      Failure?
    }

    function PropagateFailure<U>(): Result<U, E>
      requires Failure?
    {
      Failure(error)
    }

    function Extract(): R
      requires Success?
    {
      value
    }
  }

  /** The outcome of a check that returns nothing on success and raises on failure. */
  datatype Outcome<+E> = Pass | Fail(error: E)
}
